=== FILE: README.md ===
# Dungeons & Daemons: a verified model of the game core

This project models the rules core of Dungeons & Daemons, a terminal fantasy
role-playing game in which a language model acts as the dungeon master. It
proves properties of that model in Dafny. The model covers seven parts:

- **Dice engine.** Roll results and their critical/maximal/minimal
  classification, `NdS±M` notation, ability-score generation, and the
  ability modifier.
- **Character rules.** Racial bonuses, starting hit points, armor class, and
  the race/class/background proficiency tables.
- **Game state.** The Player/DM story history with its turn window, and the
  save-file record form with its decoding defaults.
- **Narrator.** The one-way switch from the language-model backend to the
  keyword-driven fallback narrator, the context handed to the backend, the
  default-filling of replies, and the fallback narrator itself.
- **Turn logic.** Reconciling a reply with the game state (hit points,
  location, inventory, history), reading commands, recovering the latest
  narrative, the game-over test, starting a new game, and the turn loop.
- **Display helpers.** The health indicator, first-match location and item
  labels, and box borders.
- **Text support.** The ASCII subset of the Python string built-ins the
  code relies on: `lower`, `strip`, `in`, `join`, `split`, `str(int)`.

The modules follow the source files:

| module | file | source |
|---|---|---|
| `Outcomes` | outcomes.dfy | `Option` and `Result` (exceptions become `Err`) |
| `Text` | text.dfy | Python string built-ins |
| `Dice` | dice.dfy | src/dice_system.py |
| `DiceText` | dice_text.dfy | src/dice_system.py: reading a printed roll result back |
| `CharacterRules` | character_rules.dfy | src/character_data.py |
| `Game` | game.dfy | src/game_state.py |
| `Narrator` | narrator.dfy | src/ai_manager.py |
| `Turn` | turn.dfy | src/main.py |
| `Display` | display.dfy | src/ascii_art.py |

Some inputs come from outside the program; the model takes them as
parameters:

- Randomness is an oracle. A roll takes the values `random.randint` drew, in
  drawing order, and requires them to be in range. The travel command takes
  a number standing for the draw of `random.choice`, taken modulo the number
  of destinations.
- The language-model backend is a function from the request context to its
  outcome: a parsed reply, a reply that is not JSON, or a failed call.
- The configured turn limit is a plain integer.

## Model

| member | source | states |
|---|---|---|
| Dice.CriticalClassification | src/dice_system.py:37-46 | a critical hit is exactly a single d20 showing 20, a critical failure exactly a single d20 showing 1, never both |
| Dice.TwoTwentiesAreNotCritical | src/dice_system.py:37-51 | two d20s both showing 20 are a maximal roll but not a critical hit |
| Dice.OneSidedDieIsMaxAndMin | src/dice_system.py:47-56 | every legal roll of a one-sided die is both maximal and minimal |
| Dice.RollsTextIsJoin | src/dice_system.py:31 | the dice text, built one die at a time, is the dice's numerals joined by " + " |
| DiceText.ResultTextReadBack | src/dice_system.py:29-35 | reading a printed roll back gives its dice, then a positive modifier as one more added term or a negative one as the term subtracted, then its total; the equation read balances |
| DiceText.ReaderReadsResult | src/dice_system.py:29-35 | any reader that undoes the " + ", " - m = " and " = " steps reads a printed result back as the equation it prints |
| DiceText.ReaderWalksTerms | src/dice_system.py:31 | such a reader walks the dice joined by " + " one term at a time, keeping their order |
| DiceText.ReadSignedRoundTrip | src/dice_system.py:35 | the printed total reads back as the total, negative ones included |
| DiceText.PositiveModifierPrintsLikeADie | src/dice_system.py:29-35 | two dice with +2 print exactly like those dice and a third showing 2, so the text alone cannot separate a positive modifier from a die |
| Dice.ResultTextEndsWithTotal | src/dice_system.py:29-35 | the printed result always ends with " = " and the total |
| Dice.RollDice | src/dice_system.py:72-78 | fails exactly when count or sides is not positive; otherwise keeps count dice in [1, sides], the die size and the modifier |
| Dice.RollTotalBounds | src/dice_system.py:21-27 | a valid roll totals between count + modifier and count * sides + modifier |
| Text.RemoveSpaces | src/dice_system.py:82 | no space is left, a space-free text is unchanged, and a single character is dropped exactly when it is a space |
| Text.RemoveSpacesOfConcat | src/dice_system.py:82 | removing spaces from two joined texts is removing them from each and joining; with the one-character case this keeps every other character, in order |
| Text.SpaceBetweenIsRemoved | src/dice_system.py:82 | a space between two texts vanishes, as if it had never been there |
| Dice.SpaceIsIgnored | src/dice_system.py:80-90 | inserting a space anywhere in a notation does not change what the parser returns |
| Dice.ParseNotation | src/dice_system.py:80-90 | succeeds iff the text, without spaces and lower-cased, begins with a dice expression; a refusal carries that cleaned text |
| Dice.MatchNotation | src/dice_system.py:86-92 | a refusal carries the text; on success the count is the default 1 exactly when the text starts with "d" rather than digits |
| Dice.MatchNotationAcceptsExactlyDicePrefixes | src/dice_system.py:80-90 | the parser accepts a text iff it begins with optional digits, "d" and at least one digit (a prefix match; trailing text is ignored) |
| Dice.MatchNotationSound | src/dice_system.py:84-90 | whatever the parser accepts begins with a dice expression |
| Dice.MatchNotationAcceptsDicePrefixes | src/dice_system.py:84-90 | every text beginning with a dice expression is accepted |
| Dice.MatchNotationComplete | src/dice_system.py:84-100 | digits, "d", digits and a non-digit parse to the count (1 when absent), sides and modifier those pieces spell |
| Dice.MatchModifierOf | src/dice_system.py:95-98 | a sign and digits give the signed modifier; no modifier group gives 0 |
| Dice.MatchNotationRoundTrip | src/dice_system.py:80-100 | parsing the canonical spelling of a notation, followed by text that cannot extend the match, gives the notation back |
| Dice.CountTextRoundTrip | src/dice_system.py:92 | the count group reads back the count, and an absent group reads as 1 |
| Dice.ModifierTextRoundTrip | src/dice_system.py:95-98 | the modifier group reads back a non-zero modifier with its sign, and its absence reads as 0 |
| Dice.ParseNotationRoundTrip | src/dice_system.py:80-100 | the full parser (spaces removed, lower-cased) inverts the canonical spelling |
| Dice.NotationCharsAreClean | src/dice_system.py:82-83 | the canonical spelling has no spaces or capitals, so the clean-up leaves it alone |
| Dice.ZeroCountParsesButDoesNotRoll | src/dice_system.py:92-105 | "0d6" parses to count 0 and is then refused by the roller |
| Dice.RollFromNotation | src/dice_system.py:102-105 | an unparsable text fails with the cleaned-up text; a parsed one fails iff count or sides is 0, and otherwise rolls that many dice |
| Dice.DiceVisual | src/dice_system.py:193-198 | a face label equals the numeral for values 1..sides; values ≤ 0 index from the end (value + sides) and fail at -sides and below; other die sizes give the numeral |
| Dice.AbilityMap | src/dice_system.py:229-230 | the table has exactly the six abilities, each set to its value |
| Dice.RollStats | src/dice_system.py:227-254 | "array" gives 15,14,13,12,10,8; "point_buy" all 8; "3d6" the sum of each block of three draws; "4d6_drop_lowest" each block of four minus its minimum; all rolled scores in [3, 18]; an unknown method gives an empty table |
| Dice.Scores | src/dice_system.py:232-252 | for a known method, the six scores in ability order: the standard array, all 8, three-dice sums or four dice minus the lowest, rolled ones in [3, 18] |
| Dice.DropLowestScores | src/dice_system.py:233-237 | each of the six scores is its four dice minus the lowest, in [3, 18] |
| Dice.ThreeDiceScores | src/dice_system.py:238-240 | each of the six scores is the sum of its three dice, in [3, 18] |
| Dice.KeepHighestThree | src/dice_system.py:235-237 | sorting descending and summing the first three equals the sum minus the minimum |
| Dice.DropLowestIsSumMinusMin | src/dice_system.py:235-237 | the three highest of four d6 sum to total minus minimum, between 3 and 18 |
| Dice.SortDescending | src/dice_system.py:236 | the descending sort is a permutation of its input |
| Dice.SortIsSorted | src/dice_system.py:236 | the descending sort is sorted high to low |
| Dice.InsertKeepsSorted | src/dice_system.py:236 | inserting into a descending list keeps it descending |
| Dice.SumSort | src/dice_system.py:236-237 | sorting does not change the sum |
| Dice.MinIsLeast | src/dice_system.py:235-237 | the minimum is an element and below every element |
| Dice.LastOfSortIsMin | src/dice_system.py:235-237 | the last of the descending sort is the minimum of the dice |
| Dice.LastOfDescendingIsMin | src/dice_system.py:235-237 | the last of any descending arrangement of the dice is their minimum |
| Dice.SortKeepsRange | src/dice_system.py:236 | sorting keeps every die in [1, sides] |
| Dice.SumDropLast | src/dice_system.py:237 | leaving out the last die takes exactly its value off the sum |
| Dice.DropLastOfSort | src/dice_system.py:235-237 | the first three of the descending sort sum to the total minus the minimum |
| Dice.GetModifier | src/dice_system.py:318-320 | the modifier m satisfies 2m ≤ score − 10 < 2m + 2 (floor division: 9 gives −1) |
| Dice.ModifierMonotone | src/dice_system.py:318-320 | a higher score never has a lower modifier |
| Dice.FormatModifier | src/dice_system.py:322-327 | "+" then digits for m ≥ 0, "-" then digits for m < 0, with no leading zero; with the round trip this is exactly `f"+{m}"` or `str(m)` |
| Dice.FormatModifierRoundTrip | src/dice_system.py:322-327 | reading a formatted modifier back gives the modifier |
| CharacterRules.AddBonuses | src/character_data.py:389-390 | succeeds iff every bonus names an ability in the table; keeps the keys and adds each ability's total bonus |
| CharacterRules.ApplyRacialBonuses | src/character_data.py:381-392 | an unknown race leaves the scores unchanged; a known race adds its bonuses and fails on a missing ability |
| CharacterRules.HumanAddsOneToEveryAbility | src/character_data.py:381-392 | a Human gets +1 on each of the six abilities and nothing on other keys |
| CharacterRules.HumanBonusFor | src/character_data.py:74 | the Human table gives exactly 1 to each of the six abilities and 0 to anything else |
| CharacterRules.BonusForDistinctNames | src/character_data.py:389-390 | with distinct names and +1 bonuses, each listed ability receives exactly 1 |
| CharacterRules.RacialProficiencies | src/character_data.py:395-400 | the race's list, or [] for an unknown race or an unset list |
| CharacterRules.RacialProficiencyTable | src/character_data.py:70-159 | only Elf (Perception) and Dwarf (four weapons) have racial proficiencies |
| CharacterRules.GetClassProficiencies | src/character_data.py:403-414 | nothing for an unknown class; otherwise the class's saving throws, skills, armor and weapons |
| CharacterRules.GetBackgroundProficiencies | src/character_data.py:417-429 | nothing for an unknown background; otherwise its skills, equipment, number of languages, feature and feature description |
| CharacterRules.BackgroundTable | src/character_data.py:297-362 | Acolyte gives 2 languages, Noble and Hermit 1, the others 0; the six features by name; an unlisted background gives nothing |
| CharacterRules.ProficiencyCounts | src/character_data.py:162-363 | every class has two saving throws and every background two skills |
| CharacterRules.StartingHp | src/character_data.py:432-438 | 8 for an unknown class; otherwise the class's own hit die, one of 6, 8, 10 and 12, plus the Constitution modifier |
| CharacterRules.StartingHpTable | src/character_data.py:162-276 | Fighter 10, Wizard 6, Rogue 8, Cleric 8, Ranger 10 and Barbarian 12, each plus the modifier; an unlisted class 8 without it |
| CharacterRules.StartingHpHasNoFloor | src/character_data.py:432-438 | a Wizard with Constitution modifier ≤ −6 starts at 0 or fewer hit points |
| CharacterRules.ArmorClass | src/character_data.py:441-463 | chain mail 16 and plate 18 regardless of Dexterity; chain shirt 13 and scale mail 14 plus Dexterity capped at +2; light armor adds full Dexterity; an unknown type counts as none |
| CharacterRules.ArmorClassMonotone | src/character_data.py:441-463 | more Dexterity never lowers the armor class |
| CharacterRules.HeavyArmorIgnoresDexterity | src/character_data.py:455-456 | heavy armor gives the same class for any Dexterity |
| CharacterRules.ArmorNeverWorseThanNoneUpToPlusFive | src/character_data.py:441-463 | up to a +5 modifier no armor type is worse than none |
| CharacterRules.ChainShirtFallsBehindAtPlusSix | src/character_data.py:457-458 | at +6 a chain shirt gives less than no armor |
| Game.AddToHistory | src/game_state.py:81-84 | one turn appends exactly "Player: action" and then "DM: narrative" after the old entries |
| Game.SliceFrom | src/game_state.py:92 | Python's `xs[start:]`, with negative starts counted from the end and clipping |
| Game.PruneHistory | src/game_state.py:86-92 | always a suffix of the history; for a limit n ≥ 1 the newest min(len, 2n) entries; 0 keeps everything; a negative n drops the oldest −2n |
| Game.PruneKeepsEvenLength | src/game_state.py:91-92 | for any limit, pruning an even-length history leaves an even-length one |
| Game.PruneState | src/game_state.py:86-92 | no limit means the state's own turn limit; only the history changes |
| Game.AddThenPruneKeepsPairs | src/game_state.py:81-92 | adding a turn and pruning keeps the history in Player/DM pairs |
| Game.SuffixKeepsPairs | src/game_state.py:86-92 | pruning a paired history keeps it paired |
| Game.HistoryText | src/game_state.py:94-99 | an empty history reads "This is the beginning of your adventure."; otherwise the entries in order with a newline between each two, whatever the entries hold |
| Text.JoinLaysOutItems | src/game_state.py:99 | `sep.join(xs)` holds each item at its offset (the items before it, each followed by sep), sep between each two, and has exactly that length |
| Text.JoinsOnlyJoin | src/game_state.py:99 | conversely, any text laid out that way is `sep.join(xs)` |
| Game.HistoryTextRoundTrip | src/game_state.py:94-99 | splitting the history text at newlines gives the entries back when none contains a newline |
| Game.DecodeStrings | src/game_state.py:29-36 | a JSON array decodes iff every element is a string, element for element |
| Game.StringsRoundTrip | src/game_state.py:19-36 | decoding an encoded string list gives it back |
| Game.DecodeCharacter | src/game_state.py:17-36 | needs name, hp and max_hp; a record with those and no inventory, or a null one, decodes to that character carrying [] |
| Game.EncodeCharacter | src/game_state.py:19-36 | `from_dict(to_dict(c)) == c`: the record reads back as the same character |
| Game.DecodeGameState | src/game_state.py:61-79 | needs a player; a missing history is [], location "Unknown", turn limit 10 |
| Game.EncodeGameState | src/game_state.py:49-72 | loading the record `save_to_json` writes gives the same state |
| Game.DecodeDefaults | src/game_state.py:62-72 | a record with only a player loads with an empty history, "Unknown" and 10 turns |
| Game.MissingMandatoryKeyGivesNothing | src/game_state.py:62-79 | a missing player, name, hp or max_hp makes loading give nothing |
| Narrator.InitialMode | src/ai_manager.py:30-46 | the manager starts connected iff backend setup succeeds |
| Narrator.DefaultValue | src/ai_manager.py:270-279 | narrative "The adventure continues...", location "Unknown", hp_change 0, both item lists []; any other key gives "" |
| Narrator.FillDefaults | src/ai_manager.py:190-196 | the filled reply has all five keys; keys present are untouched and each missing one gets its literal default |
| Narrator.EmptyReplyDefaults | src/ai_manager.py:190-196 | a reply with no keys is filled to "The adventure continues...", "Unknown", 0, [] and [] |
| Narrator.FillDefaultsIdempotent | src/ai_manager.py:190-196 | filling a filled reply changes nothing |
| Narrator.BuildContext | src/ai_manager.py:169-178 | the context carries the player's name, hit points, location, inventory text, history text and input |
| Narrator.InventoryText | src/ai_manager.py:175 | "Empty" for no items; otherwise the items in order with ", " between each two and nothing else |
| Narrator.InventoryTextEmptyExactly | src/ai_manager.py:175 | the inventory reads "Empty" iff it is empty or is the single item "Empty" |
| Narrator.Classify | src/ai_manager.py:210-261 | on the lower-cased, stripped input: attack iff an attack word occurs; heal iff no attack word and a heal word; then explore, then travel; otherwise other |
| Narrator.TravelChoices | src/ai_manager.py:250-252 | the destinations are the five locations other than the current one, all of them, at least four |
| Narrator.LocationsAreDistinct | src/ai_manager.py:250 | no destination is listed twice |
| Narrator.Without | src/ai_manager.py:252 | filtering keeps exactly the list's elements other than the excluded one |
| Narrator.Destination | src/ai_manager.py:250-252 | the chosen destination is one of the five locations and not the current one |
| Narrator.DestinationCovers | src/ai_manager.py:250-252 | every location other than the current one is the destination of some draw below the number of choices |
| Narrator.Respond | src/ai_manager.py:213-268 | per kind of input: attack −5 hp; heal +20 and removes a carried Health Potion, else 0; travel moves to the picked destination, another of the five locations; explore and other change nothing; never adds items |
| Narrator.FallbackResponse | src/ai_manager.py:208-268 | the answer for the kind the classification picks: a complete reply that never adds items; attack −5 hp; heal +20 and removes a carried Health Potion, else 0; travel moves to another of the five locations; explore and other change nothing |
| Narrator.EveryOtherLocationReachable | src/ai_manager.py:249-258 | every location other than the current one is reachable by some random choice |
| Narrator.GetAiResponse | src/ai_manager.py:163-206 | the mode only ever moves from connected to fallback; it stays connected iff the backend replied with JSON, whose missing keys are filled; otherwise the fallback narrator answers the same request |
| Narrator.FallbackIgnoresBackend | src/ai_manager.py:165-166 | in fallback mode the backend's behaviour does not affect the answer |
| Turn.ApplyHpChange | src/main.py:313-316 | a zero change leaves the hit points; a non-zero change lands in [0, max_hp], exactly hp + change when that is in range |
| Turn.AddItems | src/main.py:323-328 | keeps the old inventory as a prefix and appends every non-empty listed item not carried before, once each, ordered by where the list first names it; no duplicates are introduced |
| Turn.AppendsNew | src/main.py:326-328 | a new first item is appended before everything the rest of the list appends |
| Turn.AppendsSkipped | src/main.py:326-328 | an empty or already carried first item appends nothing |
| Turn.FirstIndex | src/main.py:330-332 | the first position holding the item |
| Turn.RemoveFirst | src/main.py:330-332 | removes only the first occurrence of a carried item, and nothing when it is not carried; the multiset loses one copy |
| Turn.RemoveItems | src/main.py:330-332 | the result's multiset is the inventory's minus the removed list's; survivors keep their order; and the result is exactly the single-pass reading that drops an entry while the removed list still owes a copy of it, so the earliest copies go |
| Turn.SurvivorsAfterRemoveFirst | src/main.py:331-332 | one `list.remove(x)` followed by the single-pass reading owing some copies is the single-pass reading owing those copies and one more x |
| Turn.RemoveFirstKeepsOrder | src/main.py:331-332 | one `list.remove` keeps every other entry in its order |
| Turn.RemoveItemsKeepsNoDuplicates | src/main.py:330-332 | removing keeps a duplicate-free inventory duplicate-free |
| Turn.ReconcileInventory | src/main.py:322-332 | adding then removing: multiset of the grown inventory minus the removed items, without duplicates; the result is a subsequence of the old inventory followed by the new items in first-listed order, and exactly the grown inventory with the earliest copies of the removed items dropped |
| Turn.AddedAndRemovedIsGone | src/main.py:322-332 | an item a reply both adds and removes is not carried afterwards |
| Turn.MultiplicityOfDistinct | src/main.py:326-328 | each item of a duplicate-free inventory occurs once |
| Turn.UpdateGameState | src/main.py:311-339 | clamps the hit points, overwrites the location only with a non-empty one, reconciles the inventory, records the turn (default "Nothing happens...") and prunes to the configured limit; name, max_hp and stored limit are untouched |
| Turn.UpdateKeepsValidState | src/main.py:311-339 | every reply keeps hit points within [0, max_hp], the inventory duplicate-free and the history paired |
| Turn.GameOverExactlyOnLethalDamage | src/main.py:313-316 | from a live valid state, the game is over after a turn iff hp + change ≤ 0 |
| Turn.GameOverMeansNoHitPoints | src/main.py:258-260 | in a valid state the game-over test holds exactly when the hit points are 0 |
| Turn.ReadCommand | src/main.py:285-306 | quit iff the stripped line lower-cased is quit, exit, q or menu; retry iff the stripped line is empty; otherwise the stripped line is the action |
| Turn.LastDmIndex | src/main.py:347-352 | the last position holding a "DM: " entry, or none |
| Turn.LatestNarrative | src/main.py:346-352 | the text after "DM: " of the last entry that starts with it; "Your adventure continues..." when no entry does |
| Turn.LatestNarrativeOfLastEntry | src/main.py:348-351 | a history whose last entry is "DM: " + text shows that text |
| Turn.LatestNarrativeAfterUpdate | src/main.py:346-352 | under a non-negative limit, the narrative recovered from the history is the one the last turn recorded |
| Turn.NegativeLimitCanLoseTheTurn | src/main.py:338-339 | a negative configured limit can prune away the turn just recorded |
| Turn.NewGame | src/main.py:102-122 | a non-empty name gives 100/100 hit points, Old Sword and Health Potion, Village Square and an empty history; an empty name gives no game |
| Turn.CreateNewGame | src/main.py:99-151 | a new game exists iff the name is non-empty; it is valid and, with a positive limit, holds exactly the opening turn "Begin adventure as name" |
| Turn.PlayTurn | src/main.py:377-392 | the mode only moves toward fallback; validity is kept; the narrative shown is the one recovered from the history; the window respects the limit |
| Turn.RunLoop | src/main.py:341-365 | the loop ends fallen iff the player's hit points are at 0 or below; validity is kept, the mode only moves toward fallback, and with a positive limit the history never exceeds twice the limit however many turns are played |
| Turn.FallbackIsPermanent | src/ai_manager.py:163-206 | once in fallback mode, a whole session stays there and no backend changes its course |
| Turn.FallbackTurnIgnoresBackend | src/ai_manager.py:165-166 | one turn in fallback mode stays in fallback and does not depend on the backend |
| Display.HealthBand | src/ascii_art.py:130-145 | non-positive hp is critical; positive hp against a zero maximum fails; otherwise full iff hp ≥ max, and good, medium, low at 3/4, 1/2, 1/4 of the maximum |
| Display.HealthIndicator | src/ascii_art.py:130-145 | the indicator is the symbol of the band, and fails exactly when the band does |
| Display.HealthBandMonotone | src/ascii_art.py:130-145 | more hit points never give a worse band |
| Display.SymbolsAreDistinct | src/ascii_art.py:52-58 | different bands have different symbols |
| Display.FirstMatch | src/ascii_art.py:147-161 | the first table entry whose key occurs in the text, and no earlier key occurs |
| Display.Label | src/ascii_art.py:147-161 | the value of the first entry whose key occurs in the text, whatever later keys occur; the default when no key occurs |
| Display.LocationPrefix | src/ascii_art.py:147-153 | the value of the first location key found in the lower-cased name, else "[Location]" |
| Display.ItemType | src/ascii_art.py:155-161 | the value of the first item key found in the lower-cased name, else "[Item]" |
| Display.LabelsIgnoreCase | src/ascii_art.py:149-157 | location and item labels do not depend on letter case |
| Display.BorderLine | src/ascii_art.py:171-173 | a line has length max(width, 2), the given end characters and the fill between |
| Display.Frame | src/ascii_art.py:169-181 | both border functions: three lines of length max(width, 2) with the style's corners, its horizontal character between them, and a blank middle between two vertical characters |

## Left out

- The screen: rich panels, colours, animations, menus, the loading messages and the per-roll display are not modelled, and neither are the d4..d100 shortcut helpers.
- The language-model backend and the Ollama installation, start-up and model download. The backend is a function parameter, and setup success is a boolean.
- File I/O, the settings store, auto-save, the error handler and the prompt template. The configured turn limit is a parameter. A missing save file and an unreadable one are not distinguished.
- Text handling is ASCII-only: `lower`, `strip` and digit tests use the ASCII rules, and non-ASCII letters, white space and digits are not modelled.
- Dice.RollStats: the draws are an oracle sequence, so the uniform distribution of `random.randint` is not stated.
- Narrator.Destination: the random draw is a number the caller supplies, taken modulo the number of choices, so the uniformity of `random.choice` is not stated.
- Game.DecodeGameState: the model rejects every record with a wrongly typed value. The source raises a TypeError, which `load_from_json` does not catch, when the record or its player is not a JSON object (src/game_state.py:68 and :31-36). It loads any other wrongly typed value (a string hp, say) unchecked.
- Narrator.Reply: the reply's fields are typed, so a backend reply with wrong JSON types or null values cannot be represented. For such values the source does the following:
  - `"items_added": "Sword"` is iterated and appends the characters S, w, o, r and d (src/main.py:326-328).
  - `"narrative": null` records "DM: None" (src/main.py:335-336).
  - `"location": 5` overwrites the location with the number (src/main.py:319-320).
  - `"hp_change": "5"` raises at src/main.py:315, and the turn's exception handler catches it (src/main.py:394).
- DiceText.ResultTextReadBack: covers results with at least one non-negative die, which is every result `roll_dice` builds. A result constructed by hand with no dice or a negative die is not read back.
- Display.HealthBand: the source divides in floating point, while the model compares exactly by cross-multiplication. The two can differ only when rounding lands on a band boundary, which needs values far beyond any reachable hit-point count.
- Turn.RunLoop: the exception branch of the loop, the game-over confirmation prompt and the keyboard interrupt are not modelled. The loop is driven by a finite list of typed lines.
- Python default arguments are explicit parameters: `roll_stats(method="4d6_drop_lowest")` (src/dice_system.py:227), `calculate_armor_class(armor_type="none")` (src/character_data.py:441) and `width=60` of both border builders (src/ascii_art.py:169,176). No default is declared, so every caller passes the value; what a call with the argument omitted does is not stated.
- Skill checks, saving throws, level-up and skill modifiers do not exist in the code, so they are not modelled.
- Three behaviours of the code are modelled as written:
  - The fixed-array method of `roll_stats` is named "array".
  - Starting hit points have no floor: a low enough Constitution gives 0 or fewer.
  - The notation parser matches a prefix of the text, so trailing text is ignored.

=== FILE: character_rules.dfy ===
/** The character rule tables of `src/character_data.py` and the lookups
    built on them: racial ability bonuses, starting hit points, armor class
    and the racial, class and background proficiency lists.

    Only the table columns the lookups read are kept: a race's ability
    bonuses and proficiencies, a class's hit die and proficiency lists, a
    background's proficiency and equipment entries. */
module CharacterRules {
  import opened Outcomes
  import opened Dice

  // ---------------------------------------------------------------------
  // Tables
  // ---------------------------------------------------------------------

  /** A race: its ability bonuses in table order, and its proficiencies,
      which the table leaves unset (`None`) for most races. */
  datatype Race = Race(statBonuses: seq<(string, int)>, proficiencies: Option<seq<string>>)

  datatype CharacterClass = CharacterClass(
    hitDie: int,
    savingThrows: seq<string>,
    skills: seq<string>,
    armor: seq<string>,
    weapons: seq<string>)

  datatype Background = Background(
    skills: seq<string>,
    languages: int,
    equipment: seq<string>,
    feature: string,
    featureDescription: string)

  /** A Human's +1 to every ability. */
  const HumanBonuses: seq<(string, int)> := [
    ("Strength", 1), ("Dexterity", 1), ("Constitution", 1),
    ("Intelligence", 1), ("Wisdom", 1), ("Charisma", 1)]

  const Races: map<string, Race> := map[
    "Human" := Race(HumanBonuses, None),
    "Elf" := Race([("Dexterity", 2)], Some(["Perception"])),
    "Dwarf" := Race([("Constitution", 2)], Some(["Battleaxe", "Handaxe", "Light hammer", "Warhammer"])),
    "Halfling" := Race([("Dexterity", 2)], None),
    "Dragonborn" := Race([("Strength", 2), ("Charisma", 1)], None),
    "Tiefling" := Race([("Intelligence", 1), ("Charisma", 2)], None)
  ]

  const Classes: map<string, CharacterClass> := map[
    "Fighter" := CharacterClass(10, ["Strength", "Constitution"],
      ["Acrobatics", "Animal Handling", "Athletics", "History", "Insight", "Intimidation", "Perception", "Survival"],
      ["All armor", "Shields"], ["Simple weapons", "Martial weapons"]),
    "Wizard" := CharacterClass(6, ["Intelligence", "Wisdom"],
      ["Arcana", "History", "Insight", "Investigation", "Medicine", "Religion"],
      ["None"], ["Daggers", "Darts", "Slings", "Quarterstaffs", "Light crossbows"]),
    "Rogue" := CharacterClass(8, ["Dexterity", "Intelligence"],
      ["Acrobatics", "Athletics", "Deception", "Insight", "Intimidation", "Investigation",
       "Perception", "Performance", "Persuasion", "Sleight of Hand", "Stealth"],
      ["Light armor"], ["Simple weapons", "Hand crossbows", "Longswords", "Rapiers", "Shortswords"]),
    "Cleric" := CharacterClass(8, ["Wisdom", "Charisma"],
      ["History", "Insight", "Medicine", "Persuasion", "Religion"],
      ["Light armor", "Medium armor", "Shields"], ["Simple weapons"]),
    "Ranger" := CharacterClass(10, ["Strength", "Dexterity"],
      ["Animal Handling", "Athletics", "Insight", "Investigation", "Nature", "Perception", "Stealth", "Survival"],
      ["Light armor", "Medium armor", "Shields"], ["Simple weapons", "Martial weapons"]),
    "Barbarian" := CharacterClass(12, ["Strength", "Constitution"],
      ["Animal Handling", "Athletics", "Intimidation", "Nature", "Perception", "Survival"],
      ["Light armor", "Medium armor", "Shields"], ["Simple weapons", "Martial weapons"])
  ]

  const Backgrounds: map<string, Background> := map[
    "Acolyte" := Background(["Insight", "Religion"], 2,
      ["Holy symbol", "Prayer book", "Incense", "Vestments", "Common clothes", "Belt pouch with 15 gp"],
      "Shelter of the Faithful",
      "You can find refuge in temples and receive healing and assistance from clergy."),
    "Criminal" := Background(["Deception", "Stealth"], 0,
      ["Crowbar", "Dark clothes with hood", "Gaming set", "Belt pouch with 15 gp"],
      "Criminal Contact",
      "You have contacts in the criminal underworld who can provide information and services."),
    "Folk Hero" := Background(["Animal Handling", "Survival"], 0,
      ["Artisan's tools", "Shovel", "Smith's tools", "Common clothes", "Belt pouch with 10 gp"],
      "Rustic Hospitality",
      "Common folk will provide you with food, shelter, and assistance."),
    "Noble" := Background(["History", "Persuasion"], 1,
      ["Fine clothes", "Signet ring", "Scroll of pedigree", "Purse with 25 gp"],
      "Position of Privilege",
      "You are welcome in high society and can secure audiences with nobles."),
    "Hermit" := Background(["Medicine", "Religion"], 1,
      ["Herbalism kit", "Scroll of spiritual writings", "Winter blanket", "Common clothes", "Belt pouch with 5 gp"],
      "Discovery",
      "You learned a unique and powerful secret during your seclusion."),
    "Soldier" := Background(["Athletics", "Intimidation"], 0,
      ["Rank insignia", "Trophy from fallen enemy", "Playing cards", "Common clothes", "Belt pouch with 10 gp"],
      "Military Rank",
      "You have rank and can invoke authority over soldiers of lower rank.")
  ]

  // ---------------------------------------------------------------------
  // Racial bonuses
  // ---------------------------------------------------------------------

  /** Raised when a bonus names an ability missing from the score table. */
  datatype KeyError = KeyError(key: string)

  /** The total bonus `bonuses` grants to ability `a`. */
  function BonusFor(bonuses: seq<(string, int)>, a: string): int {
    if |bonuses| == 0 then 0
    else (if bonuses[0].0 == a then bonuses[0].1 else 0) + BonusFor(bonuses[1..], a)
  }

  /** The `modified_stats[stat] += bonus` loop, one bonus at a time, failing
      on the first ability the score table lacks. */
  function AddBonuses(stats: map<string, int>, bonuses: seq<(string, int)>): (r: Result<map<string, int>, KeyError>)
    ensures r.Ok? <==> forall i :: 0 <= i < |bonuses| ==> bonuses[i].0 in stats
    ensures r.Ok? ==> r.value.Keys == stats.Keys
    ensures r.Ok? ==> forall a :: a in stats ==> r.value[a] == stats[a] + BonusFor(bonuses, a)
  {
    if |bonuses| == 0 then Ok(stats)
    else
      var (a, b) := bonuses[0];
      if a !in stats then Err(KeyError(a))
      else AddBonuses(stats[a := stats[a] + b], bonuses[1..])
  }

  /** `apply_racial_bonuses`: an unknown race leaves the scores as they are;
      a known race adds its bonuses to a copy of the scores. */
  function ApplyRacialBonuses(stats: map<string, int>, race: string): (r: Result<map<string, int>, KeyError>)
    ensures race !in Races ==> r == Ok(stats)
    ensures race in Races ==>
              var bonuses := Races[race].statBonuses;
              (r.Ok? <==> forall i :: 0 <= i < |bonuses| ==> bonuses[i].0 in stats) &&
              (r.Ok? ==> r.value.Keys == stats.Keys &&
                         forall a :: a in stats ==> r.value[a] == stats[a] + BonusFor(bonuses, a))
  {
    if race !in Races then Ok(stats)
    else AddBonuses(stats, Races[race].statBonuses)
  }

  /** A Human gains +1 on each of the six abilities and nothing elsewhere. */
  lemma HumanAddsOneToEveryAbility(stats: map<string, int>)
    requires forall i :: 0 <= i < 6 ==> Abilities[i] in stats
    ensures ApplyRacialBonuses(stats, "Human").Ok?
    ensures var r := ApplyRacialBonuses(stats, "Human").value;
            r.Keys == stats.Keys &&
            (forall i :: 0 <= i < 6 ==> r[Abilities[i]] == stats[Abilities[i]] + 1) &&
            (forall a :: a in stats && a !in Abilities ==> r[a] == stats[a])
  {
    assert Races["Human"].statBonuses == HumanBonuses;
    assert forall i :: 0 <= i < |HumanBonuses| ==> HumanBonuses[i].0 == Abilities[i];
    forall a | a in stats
      ensures BonusFor(HumanBonuses, a) == if a in Abilities then 1 else 0
    {
      HumanBonusFor(a);
    }
  }

  /** The Human table grants exactly 1 to each ability and 0 elsewhere. */
  lemma HumanBonusFor(a: string)
    ensures BonusFor(HumanBonuses, a) == if a in Abilities then 1 else 0
  {
    assert forall i :: 0 <= i < |HumanBonuses| ==> HumanBonuses[i] == (Abilities[i], 1);
    BonusForDistinctNames(HumanBonuses, a);
  }

  /** With one entry per ability and every bonus 1, each listed ability
      gets exactly 1. */
  lemma {:induction false} BonusForDistinctNames(bonuses: seq<(string, int)>, a: string)
    requires forall i :: 0 <= i < |bonuses| ==> bonuses[i].1 == 1
    requires forall i, j :: 0 <= i < j < |bonuses| ==> bonuses[i].0 != bonuses[j].0
    ensures BonusFor(bonuses, a) == if exists i :: 0 <= i < |bonuses| && bonuses[i].0 == a then 1 else 0
  {
    if |bonuses| > 0 {
      BonusForDistinctNames(bonuses[1..], a);
      if bonuses[0].0 == a {
        assert forall i :: 0 <= i < |bonuses[1..]| ==> bonuses[1..][i].0 != a by {
          forall i | 0 <= i < |bonuses[1..]|
            ensures bonuses[1..][i].0 != a
          {
            assert bonuses[1..][i] == bonuses[i + 1];
          }
        }
      } else {
        if exists i :: 0 <= i < |bonuses| && bonuses[i].0 == a {
          var i :| 0 <= i < |bonuses| && bonuses[i].0 == a;
          assert bonuses[1..][i - 1].0 == a;
        }
      }
    }
  }

  // ---------------------------------------------------------------------
  // Proficiencies
  // ---------------------------------------------------------------------

  /** `get_racial_proficiencies`: the race's list, or the empty list for an
      unknown race or one whose list is unset. */
  function RacialProficiencies(race: string): (r: seq<string>)
    ensures race !in Races || Races[race].proficiencies.None? ==> r == []
    ensures race in Races && Races[race].proficiencies.Some? ==> r == Races[race].proficiencies.value
  {
    if race !in Races then []
    else Races[race].proficiencies.GetOr([])
  }

  /** Only Elves and Dwarves carry racial proficiencies. */
  lemma RacialProficiencyTable()
    ensures RacialProficiencies("Elf") == ["Perception"]
    ensures RacialProficiencies("Dwarf") == ["Battleaxe", "Handaxe", "Light hammer", "Warhammer"]
    ensures forall race :: race != "Elf" && race != "Dwarf" ==> RacialProficiencies(race) == []
  {
  }

  /** The four lists `get_class_proficiencies` hands back. */
  datatype ClassProficiencies = ClassProficiencies(
    savingThrows: seq<string>, skills: seq<string>, armor: seq<string>, weapons: seq<string>)

  /** `get_class_proficiencies`: nothing (the empty dictionary) for an
      unknown class. */
  function GetClassProficiencies(className: string): (r: Option<ClassProficiencies>)
    ensures r.Some? <==> className in Classes
    ensures r.Some? ==>
              var c := Classes[className];
              r.value.savingThrows == c.savingThrows && r.value.skills == c.skills &&
              r.value.armor == c.armor && r.value.weapons == c.weapons
  {
    if className !in Classes then None
    else
      var c := Classes[className];
      Some(ClassProficiencies(c.savingThrows, c.skills, c.armor, c.weapons))
  }

  /** The five entries `get_background_proficiencies` hands back. */
  datatype BackgroundProficiencies = BackgroundProficiencies(
    skills: seq<string>, languages: int, equipment: seq<string>, feature: string, featureDescription: string)

  /** `get_background_proficiencies`: nothing (the empty dictionary) for an
      unknown background. */
  function GetBackgroundProficiencies(background: string): (r: Option<BackgroundProficiencies>)
    ensures r.Some? <==> background in Backgrounds
    ensures r.Some? ==> r.value.skills == Backgrounds[background].skills
    ensures r.Some? ==> r.value.equipment == Backgrounds[background].equipment
    ensures r.Some? ==> r.value.languages == Backgrounds[background].languages
    ensures r.Some? ==> r.value.feature == Backgrounds[background].feature
    ensures r.Some? ==> r.value.featureDescription == Backgrounds[background].featureDescription
  {
    if background !in Backgrounds then None
    else
      var b := Backgrounds[background];
      Some(BackgroundProficiencies(b.skills, b.languages, b.equipment, b.feature, b.featureDescription))
  }

  /** Every class grants exactly two saving throws, and every background
      exactly two skills. */
  lemma ProficiencyCounts()
    ensures forall c :: c in Classes ==> |GetClassProficiencies(c).value.savingThrows| == 2
    ensures forall b :: b in Backgrounds ==> |GetBackgroundProficiencies(b).value.skills| == 2
  {
  }

  /** The number of extra languages and the feature each background
      grants. */
  lemma BackgroundTable()
    ensures forall b :: b in Backgrounds ==> GetBackgroundProficiencies(b).value.languages in {0, 1, 2}
    ensures GetBackgroundProficiencies("Acolyte").value.languages == 2
    ensures GetBackgroundProficiencies("Noble").value.languages == 1
    ensures GetBackgroundProficiencies("Hermit").value.languages == 1
    ensures GetBackgroundProficiencies("Criminal").value.languages == 0
    ensures GetBackgroundProficiencies("Folk Hero").value.languages == 0
    ensures GetBackgroundProficiencies("Soldier").value.languages == 0
    ensures GetBackgroundProficiencies("Acolyte").value.feature == "Shelter of the Faithful"
    ensures GetBackgroundProficiencies("Criminal").value.feature == "Criminal Contact"
    ensures GetBackgroundProficiencies("Folk Hero").value.feature == "Rustic Hospitality"
    ensures GetBackgroundProficiencies("Noble").value.feature == "Position of Privilege"
    ensures GetBackgroundProficiencies("Hermit").value.feature == "Discovery"
    ensures GetBackgroundProficiencies("Soldier").value.feature == "Military Rank"
    ensures GetBackgroundProficiencies("Sailor").None?
  {
  }

  // ---------------------------------------------------------------------
  // Hit points and armor class
  // ---------------------------------------------------------------------

  /** `calculate_starting_hp`: the class hit die plus the Constitution
      modifier, with no lower floor; 8 for an unknown class. */
  function StartingHp(className: string, constitutionModifier: int): (hp: int)
    ensures className !in Classes ==> hp == 8
    ensures className in Classes ==> 6 + constitutionModifier <= hp <= 12 + constitutionModifier
    ensures className in Classes ==> hp == Classes[className].hitDie + constitutionModifier
    ensures className in Classes ==> hp - constitutionModifier in {6, 8, 10, 12}
  {
    if className !in Classes then 8
    else Classes[className].hitDie + constitutionModifier
  }

  /** The hit die of each class, as starting hit points with a zero
      modifier, and the modifier added on top. */
  lemma StartingHpTable(constitutionModifier: int)
    ensures StartingHp("Fighter", constitutionModifier) == 10 + constitutionModifier
    ensures StartingHp("Wizard", constitutionModifier) == 6 + constitutionModifier
    ensures StartingHp("Rogue", constitutionModifier) == 8 + constitutionModifier
    ensures StartingHp("Cleric", constitutionModifier) == 8 + constitutionModifier
    ensures StartingHp("Ranger", constitutionModifier) == 10 + constitutionModifier
    ensures StartingHp("Barbarian", constitutionModifier) == 12 + constitutionModifier
    ensures StartingHp("Bard", constitutionModifier) == 8
  {
  }

  /** Nothing keeps starting hit points positive: a Wizard with a
      Constitution modifier of -6 or less starts at zero or below. */
  lemma StartingHpHasNoFloor(constitutionModifier: int)
    requires constitutionModifier <= -6
    ensures StartingHp("Wizard", constitutionModifier) <= 0
  {
  }

  /** The armor bonus per armor type. */
  const ArmorBonuses: map<string, int> := map[
    "none" := 0, "leather" := 1, "studded_leather" := 2,
    "chain_shirt" := 3, "scale_mail" := 4, "chain_mail" := 6, "plate" := 8
  ]

  predicate IsHeavyArmor(armor: string) {
    armor == "chain_mail" || armor == "plate"
  }

  predicate IsMediumArmor(armor: string) {
    armor == "chain_shirt" || armor == "scale_mail"
  }

  /** `calculate_armor_class`: heavy armor ignores Dexterity, medium armor
      caps it at +2 (a penalty applies in full), light or no armor applies
      it in full, and an unrecognised armor type counts as no armor. */
  function ArmorClass(dexterityModifier: int, armor: string): (ac: int)
    ensures armor == "chain_mail" ==> ac == 16
    ensures armor == "plate" ==> ac == 18
    ensures armor == "chain_shirt" ==> ac == 13 + Min(dexterityModifier, 2)
    ensures armor == "scale_mail" ==> ac == 14 + Min(dexterityModifier, 2)
    ensures armor in {"none", "leather", "studded_leather"} ==> ac == 10 + ArmorBonuses[armor] + dexterityModifier
    ensures armor !in ArmorBonuses ==> ac == 10 + dexterityModifier
  {
    var baseAc := 10 + dexterityModifier;
    if armor in ArmorBonuses then
      if IsHeavyArmor(armor) then 10 + ArmorBonuses[armor]
      else if IsMediumArmor(armor) then 10 + ArmorBonuses[armor] + Min(dexterityModifier, 2)
      else 10 + ArmorBonuses[armor] + dexterityModifier
    else baseAc
  }

  /** More Dexterity never lowers the armor class, whatever the armor. */
  lemma ArmorClassMonotone(d1: int, d2: int, armor: string)
    requires d1 <= d2
    ensures ArmorClass(d1, armor) <= ArmorClass(d2, armor)
  {
  }

  /** Heavy armor gives the same class whatever the Dexterity. */
  lemma HeavyArmorIgnoresDexterity(d1: int, d2: int, armor: string)
    requires IsHeavyArmor(armor)
    ensures ArmorClass(d1, armor) == ArmorClass(d2, armor)
  {
  }

  /** Up to a +5 Dexterity modifier no armor type is worse than wearing
      none; at +6 the capped medium armor falls behind. */
  lemma ArmorNeverWorseThanNoneUpToPlusFive(d: int, armor: string)
    requires d <= 5
    ensures ArmorClass(d, armor) >= ArmorClass(d, "none")
  {
  }

  lemma ChainShirtFallsBehindAtPlusSix()
    ensures ArmorClass(6, "chain_shirt") < ArmorClass(6, "none")
  {
  }
}

=== FILE: dice.dfy ===
/** The dice engine of `src/dice_system.py`: roll results and their
    classification, `NdS±M` notation, ability-score generation and the
    ability modifier.

    Randomness is an explicit oracle: every function that rolls takes the
    sequence of values `random.randint(1, sides)` produced, in the order
    the source draws them, and requires each to lie in `[1, sides]`. */
module Dice {
  import opened Outcomes
  import opened Text

  datatype DiceError =
    | InvalidDiceSpec               // count or sides not positive
    | InvalidNotation(text: string) // no dice expression at the start of the text

  function Sum(xs: seq<int>): int {
    if |xs| == 0 then 0 else xs[0] + Sum(xs[1..])
  }

  /** Every value lies in `[1, sides]`, as `random.randint(1, sides)` promises. */
  predicate InRange(xs: seq<int>, sides: int) {
    forall i :: 0 <= i < |xs| ==> 1 <= xs[i] <= sides
  }

  lemma {:induction false} SumBounds(xs: seq<int>, sides: int)
    requires InRange(xs, sides)
    ensures |xs| <= Sum(xs) <= |xs| * sides
  {
    if |xs| > 0 {
      SumBounds(xs[1..], sides);
      assert |xs| * sides == sides + |xs[1..]| * sides;
    }
  }

  lemma {:induction false} SumAppend(xs: seq<int>, ys: seq<int>)
    ensures Sum(xs + ys) == Sum(xs) + Sum(ys)
  {
    if |xs| > 0 {
      assert (xs + ys)[0] == xs[0];
      assert (xs + ys)[1..] == xs[1..] + ys;
      SumAppend(xs[1..], ys);
    } else {
      assert xs + ys == ys;
    }
  }

  // ---------------------------------------------------------------------
  // DiceResult
  // ---------------------------------------------------------------------

  /** One roll: the individual dice, the die size, the flat modifier and a
      free-text description. Total and roll count are derived. */
  datatype DiceResult = DiceResult(rolls: seq<int>, diceType: int, modifier: int, description: string) {

    function Total(): int {
      Sum(rolls) + modifier
    }

    function RollCount(): nat {
      |rolls|
    }

    /** A natural 20 on a single d20. */
    predicate IsCriticalHit() {
      diceType == 20 && RollCount() == 1 && rolls[0] == 20
    }

    /** A natural 1 on a single d20. */
    predicate IsCriticalFail() {
      diceType == 20 && RollCount() == 1 && rolls[0] == 1
    }

    predicate IsMaxRoll() {
      forall i :: 0 <= i < |rolls| ==> rolls[i] == diceType
    }

    predicate IsMinRoll() {
      forall i :: 0 <= i < |rolls| ==> rolls[i] == 1
    }
  }

  /** The two critical flags exclude each other, and only a single d20 can
      raise either of them. */
  lemma CriticalClassification(d: DiceResult)
    ensures !(d.IsCriticalHit() && d.IsCriticalFail())
    ensures d.IsCriticalHit() || d.IsCriticalFail() ==> d.diceType == 20 && |d.rolls| == 1
    ensures d.IsCriticalHit() <==> d.diceType == 20 && d.rolls == [20]
    ensures d.IsCriticalFail() <==> d.diceType == 20 && d.rolls == [1]
  {
  }

  /** A multi-die roll is never critical, even when every die shows 20. */
  lemma TwoTwentiesAreNotCritical(d: DiceResult)
    requires d.diceType == 20 && d.rolls == [20, 20]
    ensures d.IsMaxRoll()
    ensures !d.IsCriticalHit() && !d.IsCriticalFail()
  {
  }

  /** On a one-sided die every legal roll is both maximal and minimal. */
  lemma OneSidedDieIsMaxAndMin(d: DiceResult)
    requires d.diceType == 1 && InRange(d.rolls, 1)
    ensures d.IsMaxRoll() && d.IsMinRoll()
  {
  }

  /** `DiceResult.__str__`: the dice joined by " + ", then the modifier
      written with its own sign, then " = " and the total. */
  function ResultText(d: DiceResult): string {
    var rollsText := RollsText(d.rolls);
    var total := IntToString(d.Total());
    if d.modifier > 0 then rollsText + " + " + IntToString(d.modifier) + " = " + total
    else if d.modifier < 0 then rollsText + " - " + IntToString(Abs(d.modifier)) + " = " + total
    else rollsText + " = " + total
  }

  function Abs(x: int): nat {
    if x < 0 then -x else x
  }

  /** `" + ".join(map(str, rolls))`, one die at a time. */
  function RollsText(rolls: seq<int>): string {
    if |rolls| == 0 then ""
    else if |rolls| == 1 then IntToString(rolls[0])
    else IntToString(rolls[0]) + " + " + RollsText(rolls[1..])
  }

  /** The dice text is the numerals of the dice joined by " + ". */
  lemma {:induction false} RollsTextIsJoin(rolls: seq<int>)
    ensures RollsText(rolls) == Join(" + ", Numerals(rolls))
  {
    if |rolls| > 1 {
      RollsTextIsJoin(rolls[1..]);
      assert Numerals(rolls)[1..] == Numerals(rolls[1..]);
    }
  }

  function Numerals(xs: seq<int>): (r: seq<string>)
    ensures |r| == |xs|
    ensures forall i :: 0 <= i < |xs| ==> r[i] == IntToString(xs[i])
  {
    if |xs| == 0 then [] else [IntToString(xs[0])] + Numerals(xs[1..])
  }

  /** The printed form of a result always ends with its total. */
  lemma ResultTextEndsWithTotal(d: DiceResult)
    ensures var r := ResultText(d);
            var t := " = " + IntToString(d.Total());
            |t| <= |r| && r[|r| - |t|..] == t
  {
  }

  // ---------------------------------------------------------------------
  // Rolling
  // ---------------------------------------------------------------------

  /** `DiceRoller.roll_dice`. `draws` are the `count` values the random
      source produced; they are only demanded when the arguments are valid. */
  function RollDice(count: int, sides: int, modifier: int, description: string, draws: seq<int>): (r: Result<DiceResult, DiceError>)
    requires count > 0 && sides > 0 ==> |draws| == count && InRange(draws, sides)
    ensures r.Err? <==> count <= 0 || sides <= 0
    ensures r.Err? ==> r.error == InvalidDiceSpec
    ensures r.Ok? ==> r.value.RollCount() == count && InRange(r.value.rolls, sides)
    ensures r.Ok? ==> r.value.diceType == sides && r.value.modifier == modifier
  {
    if count <= 0 || sides <= 0 then Err(InvalidDiceSpec)
    else Ok(DiceResult(draws, sides, modifier, description))
  }

  /** Every produced total lies between "all ones" and "all maximal". */
  lemma RollTotalBounds(count: int, sides: int, modifier: int, description: string, draws: seq<int>)
    requires count > 0 && sides > 0 && |draws| == count && InRange(draws, sides)
    ensures RollDice(count, sides, modifier, description, draws).Ok?
    ensures var d := RollDice(count, sides, modifier, description, draws).value;
            count + modifier <= d.Total() <= count * sides + modifier
  {
    SumBounds(draws, sides);
  }

  // ---------------------------------------------------------------------
  // Dice notation
  // ---------------------------------------------------------------------

  datatype Notation = Notation(count: nat, sides: nat, modifier: int)

  /** The clean-up `parse_dice_notation` applies first: spaces removed and
      letters lower-cased. */
  function Normalize(text: string): string {
    Lower(RemoveSpaces(text))
  }

  /** A space anywhere in the notation makes no difference to the parse. */
  lemma SpaceIsIgnored(a: string, b: string)
    ensures ParseNotation(a + " " + b) == ParseNotation(a + b)
  {
    SpaceBetweenIsRemoved(a, b);
    assert Normalize(a + " " + b) == Normalize(a + b);
  }

  /** `parse_dice_notation`. */
  function ParseNotation(text: string): (r: Result<Notation, DiceError>)
    ensures r.Ok? <==> HasDicePrefix(Normalize(text))
    ensures r.Err? ==> r.error == InvalidNotation(Normalize(text))
  {
    MatchNotationAcceptsExactlyDicePrefixes(Normalize(text));
    MatchNotation(Normalize(text))
  }

  /** The regular expression `(?:(\d+))?d(\d+)(?:([+-])(\d+))?` applied with
      `re.match`: anchored at the start only, so whatever follows the
      longest match is ignored. An absent count means 1; a present count is
      taken literally, zero included. */
  function MatchNotation(s: string): (r: Result<Notation, DiceError>)
    ensures r.Err? ==> r.error == InvalidNotation(s)
    ensures r.Ok? ==> |s| > 0 && (s[0] == 'd' <==> r.value.count == 1 && !IsDigit(s[0]))
  {
    var a := LeadingDigits(s);
    if a < |s| && s[a] == 'd' && LeadingDigits(s[a + 1..]) > 0 then
      var rest := s[a + 1..];
      var b := LeadingDigits(rest);
      var count := if a == 0 then 1 else DigitsValue(s[..a]);
      Ok(Notation(count, DigitsValue(rest[..b]), MatchModifier(rest[b..])))
    else
      Err(InvalidNotation(s))
  }

  /** The optional `([+-])(\d+)` group; when it does not match, the
      modifier is zero. */
  function MatchModifier(tail: string): int {
    if |tail| >= 2 && (tail[0] == '+' || tail[0] == '-') && IsDigit(tail[1]) then
      var digits := tail[1..];
      var v: int := DigitsValue(digits[..LeadingDigits(digits)]);
      if tail[0] == '+' then v else -v
    else 0
  }

  /** Text that could extend a match of the optional modifier group. */
  predicate StartsSignedNumber(tail: string) {
    |tail| >= 2 && (tail[0] == '+' || tail[0] == '-') && IsDigit(tail[1])
  }

  /** `NdS±M` in its canonical spelling; the count may be left out. */
  function ShowNotation(n: Notation, showCount: bool): string {
    CountText(n.count, showCount) + "d" + NatToString(n.sides) + ModifierText(n.modifier)
  }

  function CountText(count: nat, showCount: bool): string {
    if showCount then NatToString(count) else ""
  }

  /** A non-zero modifier with its sign; nothing for zero. */
  function ModifierText(m: int): string {
    if m > 0 then "+" + NatToString(m)
    else if m < 0 then "-" + NatToString(-m)
    else ""
  }

  /** The matcher accepts exactly the texts that begin with an optional run
      of digits, a `d`, and at least one digit. */
  ghost predicate HasDicePrefix(s: string) {
    exists a: string, b: string {:trigger StartsWith(s, a + "d" + b)} ::
      AllDigits(a) && AllDigits(b) && |b| > 0 && StartsWith(s, a + "d" + b)
  }

  /** Whatever the matcher accepts begins with a dice expression. */
  lemma MatchNotationSound(s: string)
    requires MatchNotation(s).Ok?
    ensures HasDicePrefix(s)
  {
    var a := LeadingDigits(s);
    var b := LeadingDigits(s[a + 1..]);
    var da, db := s[..a], s[a + 1..][..b];
    assert s[..|da + "d" + db|] == da + "d" + db;
    assert StartsWith(s, da + "d" + db);
  }

  /** A digit run, `d`, a digit run and then a non-digit is accepted, with
      the count and sides those runs spell. */
  lemma {:induction false} MatchNotationComplete(countText: string, sidesText: string, tail: string)
    requires AllDigits(countText) && AllDigits(sidesText) && |sidesText| > 0
    requires tail == [] || !IsDigit(tail[0])
    ensures MatchNotation(countText + "d" + sidesText + tail)
            == Ok(Notation(if countText == [] then 1 else DigitsValue(countText),
                           DigitsValue(sidesText), MatchModifier(tail)))
  {
    var s := countText + "d" + sidesText + tail;
    var rest := sidesText + tail;
    assert s == countText + (['d'] + rest);
    LeadingDigitsOfConcat(countText, ['d'] + rest);
    var a := |countText|;
    assert LeadingDigits(s) == a && s[..a] == countText && s[a] == 'd';
    assert s[a + 1..] == rest;
    LeadingDigitsOfConcat(sidesText, tail);
    var b := |sidesText|;
    assert LeadingDigits(rest) == b > 0 && rest[..b] == sidesText && rest[b..] == tail;
  }

  /** Every text with a dice expression at its start is accepted. */
  lemma MatchNotationAcceptsDicePrefixes(s: string)
    requires HasDicePrefix(s)
    ensures MatchNotation(s).Ok?
  {
    var da: string, db: string :| AllDigits(da) && AllDigits(db) && |db| > 0 && StartsWith(s, da + "d" + db);
    var more := s[|da| + 1..];
    var k := LeadingDigits(more);
    var p := da + "d" + db;
    assert s[..|p|] == p;
    assert more[..|db|] == db by {
      forall i | 0 <= i < |db|
        ensures more[i] == db[i]
      {
        assert more[i] == s[|da| + 1 + i] == p[|da| + 1 + i];
      }
    }
    assert |db| <= k;
    var sidesText, tail := more[..k], more[k..];
    assert s == da + "d" + sidesText + tail;
    MatchNotationComplete(da, sidesText, tail);
  }

  lemma MatchNotationAcceptsExactlyDicePrefixes(s: string)
    ensures MatchNotation(s).Ok? <==> HasDicePrefix(s)
  {
    if MatchNotation(s).Ok? {
      MatchNotationSound(s);
    }
    if HasDicePrefix(s) {
      MatchNotationAcceptsDicePrefixes(s);
    }
  }

  /** The optional modifier group reads a sign and the digits after it. */
  lemma {:induction false} MatchModifierOf(sign: char, m: nat, tail: string)
    requires sign == '+' || sign == '-'
    requires tail == [] || !IsDigit(tail[0])
    ensures MatchModifier([sign] + NatToString(m) + tail) == if sign == '+' then m as int else -(m as int)
  {
    var t := [sign] + NatToString(m) + tail;
    var digits := t[1..];
    assert digits == NatToString(m) + tail;
    LeadingDigitsOfConcat(NatToString(m), tail);
    NatToStringRoundTrip(m);
    assert digits[..LeadingDigits(digits)] == NatToString(m);
  }

  /** Decoding the canonical spelling gives back the notation, and trailing
      text that cannot extend the match is ignored. */
  lemma {:induction false} MatchNotationRoundTrip(n: Notation, showCount: bool, tail: string)
    requires showCount || n.count == 1
    requires tail == [] || !IsDigit(tail[0])
    requires n.modifier == 0 ==> !StartsSignedNumber(tail)
    ensures MatchNotation(ShowNotation(n, showCount) + tail) == Ok(n)
  {
    var countText := CountText(n.count, showCount);
    var sidesText := NatToString(n.sides);
    var modText := ModifierText(n.modifier);
    assert ShowNotation(n, showCount) + tail == countText + "d" + sidesText + (modText + tail);
    MatchNotationComplete(countText, sidesText, modText + tail);
    CountTextRoundTrip(n.count, showCount);
    NatToStringRoundTrip(n.sides);
    ModifierTextRoundTrip(n.modifier, tail);
  }

  /** The count group reads back the count, or 1 when it is left out. */
  lemma CountTextRoundTrip(count: nat, showCount: bool)
    requires showCount || count == 1
    ensures var t := CountText(count, showCount);
            AllDigits(t) && (if t == [] then 1 else DigitsValue(t)) == count
  {
    if showCount {
      NatToStringRoundTrip(count);
    }
  }

  /** The modifier group reads back the modifier, and a zero modifier
      leaves nothing that the group could match. */
  lemma ModifierTextRoundTrip(m: int, tail: string)
    requires tail == [] || !IsDigit(tail[0])
    requires m == 0 ==> !StartsSignedNumber(tail)
    ensures MatchModifier(ModifierText(m) + tail) == m
  {
    if m > 0 {
      MatchModifierOf('+', m, tail);
      assert ModifierText(m) + tail == ['+'] + NatToString(m) + tail;
    } else if m < 0 {
      MatchModifierOf('-', -m, tail);
      assert ModifierText(m) + tail == ['-'] + NatToString(-m) + tail;
    } else {
      assert ModifierText(m) + tail == tail;
    }
  }

  /** The canonical spelling has no spaces or capitals, so the clean-up
      step leaves it alone and the full parser round-trips too. */
  lemma ParseNotationRoundTrip(n: Notation, showCount: bool)
    requires showCount || n.count == 1
    ensures ParseNotation(ShowNotation(n, showCount)) == Ok(n)
  {
    var s := ShowNotation(n, showCount);
    NotationCharsAreClean(n, showCount);
    assert RemoveSpaces(s) == s;
    LowerOfLowerCase(s);
    MatchNotationRoundTrip(n, showCount, []);
    assert s + [] == s;
  }

  lemma NotationCharsAreClean(n: Notation, showCount: bool)
    ensures var s := ShowNotation(n, showCount);
            forall i :: 0 <= i < |s| ==> s[i] != ' ' && !IsUpper(s[i])
  {
    var s := ShowNotation(n, showCount);
    forall i | 0 <= i < |s|
      ensures s[i] != ' ' && !IsUpper(s[i])
    {
      var c := s[i];
      assert IsDigit(c) || c == 'd' || c == '+' || c == '-';
    }
  }

  /** "0d6" is accepted by the parser with a count of zero, and then
      refused when rolled. */
  lemma ZeroCountParsesButDoesNotRoll()
    ensures ParseNotation("0d6") == Ok(Notation(0, 6, 0))
    ensures RollFromNotation("0d6", "", []).Err?
  {
    assert Normalize("0d6") == "0d6";
    assert LeadingDigits("0d6") == 1;
    assert LeadingDigits("6") == 1;
  }

  /** `roll_from_notation`: parse, then roll. */
  function RollFromNotation(text: string, description: string, draws: seq<int>): (r: Result<DiceResult, DiceError>)
    requires var p := ParseNotation(text);
             p.Ok? && p.value.count > 0 && p.value.sides > 0 ==>
               |draws| == p.value.count && InRange(draws, p.value.sides)
    ensures ParseNotation(text).Err? ==> r == Err(InvalidNotation(Normalize(text)))
    ensures ParseNotation(text).Ok? ==>
              var n := ParseNotation(text).value;
              (r.Err? <==> n.count == 0 || n.sides == 0) &&
              (r.Ok? ==> r.value.RollCount() == n.count && r.value.diceType == n.sides && r.value.modifier == n.modifier)
  {
    var n :- ParseNotation(text);
    RollDice(n.count, n.sides, n.modifier, description, draws)
  }

  // ---------------------------------------------------------------------
  // Dice faces
  // ---------------------------------------------------------------------

  datatype IndexError = IndexError

  /** The die sizes the roller keeps a face table for. */
  predicate HasFaceTable(sides: int) {
    sides == 4 || sides == 6 || sides == 8 || sides == 10 || sides == 12 || sides == 20
  }

  function Faces(sides: nat): seq<string> {
    seq(sides, j requires 0 <= j < sides => NatToString(j + 1))
  }

  /** `_get_dice_visual`: the face label from the table when `value` is at
      most the die size, using Python's negative indexing for values of 0
      or less, and the plain numeral otherwise. */
  function DiceVisual(value: int, sides: int): (r: Result<string, IndexError>)
    ensures value >= 1 ==> r == Ok(IntToString(value))
    ensures !HasFaceTable(sides) ==> r == Ok(IntToString(value))
    ensures HasFaceTable(sides) && value <= 0 ==>
              (r.Ok? <==> value > -sides) && (r.Ok? ==> r.value == IntToString(value + sides))
  {
    if HasFaceTable(sides) && value <= sides then
      var faces := Faces(sides);
      var j := value - 1;
      if j >= 0 then Ok(faces[j])
      else if j + sides >= 0 then Ok(faces[j + sides])
      else Err(IndexError)
    else
      Ok(IntToString(value))
  }

  // ---------------------------------------------------------------------
  // Ability scores
  // ---------------------------------------------------------------------

  const Abilities: seq<string> := ["Strength", "Dexterity", "Constitution", "Intelligence", "Wisdom", "Charisma"]

  const StandardArray: seq<int> := [15, 14, 13, 12, 10, 8]

  /** A score table with the six abilities, in canonical order, set to `vs`. */
  function AbilityMap(vs: seq<int>): (m: map<string, int>)
    requires |vs| == 6
    ensures m.Keys == set a | a in Abilities
    ensures forall i :: 0 <= i < 6 ==> Abilities[i] in m && m[Abilities[i]] == vs[i]
  {
    map[Abilities[0] := vs[0], Abilities[1] := vs[1], Abilities[2] := vs[2],
        Abilities[3] := vs[3], Abilities[4] := vs[4], Abilities[5] := vs[5]]
  }

  /** How many d6 values `roll_stats` draws for a generation method. */
  function DrawsNeeded(how: string): nat {
    if how == "4d6_drop_lowest" then 24
    else if how == "3d6" then 18
    else 0
  }

  /** The generation methods `roll_stats` knows. */
  predicate KnownMethod(how: string) {
    how == "4d6_drop_lowest" || how == "3d6" || how == "point_buy" || how == "array"
  }

  /** `roll_stats`: ability scores for the four generation methods; an
      unknown method gives an empty table. `draws` holds the d6 values in
      the order they are drawn, four (or three) per ability. */
  function RollStats(how: string, draws: seq<int>): (r: map<string, int>)
    requires |draws| == DrawsNeeded(how) && InRange(draws, 6)
    ensures r.Keys == if KnownMethod(how) then set a | a in Abilities else {}
    ensures how == "array" ==> forall i :: 0 <= i < 6 ==> r[Abilities[i]] == StandardArray[i]
    ensures how == "point_buy" ==> forall i :: 0 <= i < 6 ==> r[Abilities[i]] == 8
    ensures how == "4d6_drop_lowest" ==>
              forall i :: 0 <= i < 6 ==>
                r[Abilities[i]] == Sum(Block(draws, 4, i)) - Lowest(Block(draws, 4, i)) && 3 <= r[Abilities[i]] <= 18
    ensures how == "3d6" ==>
              forall i :: 0 <= i < 6 ==> r[Abilities[i]] == Sum(Block(draws, 3, i)) && 3 <= r[Abilities[i]] <= 18
  {
    if KnownMethod(how) then AbilityMap(Scores(how, draws)) else map[]
  }

  /** The six scores of a known method, in ability order. */
  function Scores(how: string, draws: seq<int>): (r: seq<int>)
    requires KnownMethod(how) && |draws| == DrawsNeeded(how) && InRange(draws, 6)
    ensures |r| == 6
    ensures how == "array" ==> r == StandardArray
    ensures how == "point_buy" ==> forall i :: 0 <= i < 6 ==> r[i] == 8
    ensures how == "4d6_drop_lowest" ==>
              forall i :: 0 <= i < 6 ==> r[i] == Sum(Block(draws, 4, i)) - Lowest(Block(draws, 4, i)) && 3 <= r[i] <= 18
    ensures how == "3d6" ==>
              forall i :: 0 <= i < 6 ==> r[i] == Sum(Block(draws, 3, i)) && 3 <= r[i] <= 18
  {
    if how == "4d6_drop_lowest" then DropLowestScores(draws)
    else if how == "3d6" then ThreeDiceScores(draws)
    else if how == "point_buy" then [8, 8, 8, 8, 8, 8]
    else StandardArray
  }

  /** The `i`-th group of `size` consecutive draws. */
  function Block(draws: seq<int>, size: nat, i: nat): (b: seq<int>)
    requires size * i + size <= |draws|
    ensures |b| == size
  {
    draws[size * i..size * i + size]
  }

  lemma BlockInRange(draws: seq<int>, size: nat, i: nat, sides: int)
    requires size * i + size <= |draws| && InRange(draws, sides)
    ensures InRange(Block(draws, size, i), sides)
  {
    var b := Block(draws, size, i);
    forall k | 0 <= k < |b|
      ensures 1 <= b[k] <= sides
    {
      assert b[k] == draws[size * i + k];
    }
  }

  /** Six "4d6, drop the lowest" scores, one per block of four draws. */
  function DropLowestScores(draws: seq<int>): (r: seq<int>)
    requires |draws| == 24 && InRange(draws, 6)
    ensures |r| == 6
    ensures forall i :: 0 <= i < 6 ==> r[i] == Sum(Block(draws, 4, i)) - Lowest(Block(draws, 4, i)) && 3 <= r[i] <= 18
  {
    seq(6, i requires 0 <= i < 6 =>
      BlockInRange(draws, 4, i, 6);
      KeepHighestThree(Block(draws, 4, i)))
  }

  /** Six "3d6" scores, one per block of three draws. */
  function ThreeDiceScores(draws: seq<int>): (r: seq<int>)
    requires |draws| == 18 && InRange(draws, 6)
    ensures |r| == 6
    ensures forall i :: 0 <= i < 6 ==> r[i] == Sum(Block(draws, 3, i)) && 3 <= r[i] <= 18
  {
    seq(6, i requires 0 <= i < 6 =>
      BlockInRange(draws, 3, i, 6);
      ThreeDice(Block(draws, 3, i)))
  }

  /** Three d6 summed. */
  function ThreeDice(three: seq<int>): (r: int)
    requires |three| == 3 && InRange(three, 6)
    ensures r == Sum(three) && 3 <= r <= 18
  {
    SumBounds(three, 6);
    Sum(three)
  }

  /** Four d6, sorted high to low, first three summed: the lowest die is
      dropped. */
  function KeepHighestThree(four: seq<int>): (r: int)
    requires |four| == 4 && InRange(four, 6)
    ensures r == Sum(four) - Lowest(four)
    ensures 3 <= r <= 18
  {
    var sorted := SortDescending(four);
    DropLowestIsSumMinusMin(four);
    Sum(sorted[..3])
  }

  function Lowest(xs: seq<int>): int
    requires |xs| > 0
  {
    if |xs| == 1 then xs[0]
    else Min(xs[0], Lowest(xs[1..]))
  }

  predicate SortedDescending(xs: seq<int>) {
    forall i, j :: 0 <= i < j < |xs| ==> xs[i] >= xs[j]
  }

  /** `x` placed before the first element it is not smaller than. */
  function InsertDescending(x: int, xs: seq<int>): (r: seq<int>)
    ensures |r| == |xs| + 1
    ensures multiset(r) == multiset(xs) + multiset{x}
  {
    if |xs| == 0 || x >= xs[0] then [x] + xs
    else
      assert xs == [xs[0]] + xs[1..];
      [xs[0]] + InsertDescending(x, xs[1..])
  }

  /** `list.sort(reverse=True)` on integers. */
  function SortDescending(xs: seq<int>): (r: seq<int>)
    ensures |r| == |xs|
    ensures multiset(r) == multiset(xs)
  {
    if |xs| == 0 then []
    else
      assert xs == [xs[0]] + xs[1..];
      InsertDescending(xs[0], SortDescending(xs[1..]))
  }

  lemma {:induction false} InsertKeepsSorted(x: int, xs: seq<int>)
    requires SortedDescending(xs)
    ensures SortedDescending(InsertDescending(x, xs))
  {
    if |xs| > 0 && x < xs[0] {
      var rest := InsertDescending(x, xs[1..]);
      InsertKeepsSorted(x, xs[1..]);
      // the head of `rest` is `x` or `xs[1]`, and both are at most `xs[0]`
      assert xs[0] >= rest[0] by {
        if |xs| > 1 && x < xs[1] {
          assert rest[0] == xs[1];
        }
      }
      var r := InsertDescending(x, xs);
      assert r == [xs[0]] + rest;
      forall i, j | 0 <= i < j < |r|
        ensures r[i] >= r[j]
      {
        if i == 0 {
          assert rest[0] >= rest[j - 1];
        }
      }
    }
  }

  lemma {:induction false} SortIsSorted(xs: seq<int>)
    ensures SortedDescending(SortDescending(xs))
  {
    if |xs| > 0 {
      SortIsSorted(xs[1..]);
      InsertKeepsSorted(xs[0], SortDescending(xs[1..]));
    }
  }

  lemma {:induction false} SumInsert(x: int, xs: seq<int>)
    ensures Sum(InsertDescending(x, xs)) == x + Sum(xs)
  {
    if |xs| > 0 && x < xs[0] {
      SumInsert(x, xs[1..]);
    }
  }

  lemma {:induction false} SumSort(xs: seq<int>)
    ensures Sum(SortDescending(xs)) == Sum(xs)
  {
    if |xs| > 0 {
      SumSort(xs[1..]);
      SumInsert(xs[0], SortDescending(xs[1..]));
    }
  }

  /** The minimum is an element and bounds every element from below. */
  lemma {:induction false} MinIsLeast(xs: seq<int>)
    requires |xs| > 0
    ensures Lowest(xs) in xs
    ensures forall i :: 0 <= i < |xs| ==> Lowest(xs) <= xs[i]
  {
    if |xs| > 1 {
      MinIsLeast(xs[1..]);
      assert forall i :: 1 <= i < |xs| ==> xs[i] == xs[1..][i - 1];
    }
  }

  /** The last of a descending order is the minimum of the values. */
  lemma LastOfSortIsMin(xs: seq<int>)
    requires |xs| > 0
    ensures var sorted := SortDescending(xs);
            sorted[|sorted| - 1] == Lowest(xs)
  {
    SortIsSorted(xs);
    LastOfDescendingIsMin(xs, SortDescending(xs));
  }

  /** The last of any descending arrangement of the values is their minimum. */
  lemma LastOfDescendingIsMin(xs: seq<int>, sorted: seq<int>)
    requires |xs| > 0 && multiset(sorted) == multiset(xs) && SortedDescending(sorted)
    ensures |sorted| == |xs| && sorted[|sorted| - 1] == Lowest(xs)
  {
    assert |sorted| == |multiset(sorted)| == |xs|;
    var n := |sorted| - 1;
    MinIsLeast(xs);
    // the minimum sits somewhere in the descending order, so it is at least the last
    assert Lowest(xs) in multiset(sorted);
    var k :| 0 <= k < |sorted| && sorted[k] == Lowest(xs);
    assert sorted[k] >= sorted[n];
    // the last is one of the values, so it is at least the minimum
    assert sorted[n] in multiset(xs);
    var j :| 0 <= j < |xs| && xs[j] == sorted[n];
  }

  /** Every element of the descending order is one of the values. */
  lemma SortKeepsRange(xs: seq<int>, sides: int)
    requires InRange(xs, sides)
    ensures InRange(SortDescending(xs), sides)
  {
    var sorted := SortDescending(xs);
    forall i | 0 <= i < |sorted|
      ensures 1 <= sorted[i] <= sides
    {
      assert sorted[i] in multiset(xs);
    }
  }

  /** Leaving out the last value takes it off the sum. */
  lemma SumDropLast(s: seq<int>)
    requires |s| > 0
    ensures Sum(s[..|s| - 1]) == Sum(s) - s[|s| - 1]
  {
    var n := |s| - 1;
    assert s == s[..n] + [s[n]];
    SumAppend(s[..n], [s[n]]);
    assert [s[n]][1..] == [];
  }

  /** Dropping the last of a descending order removes exactly the minimum. */
  lemma DropLastOfSort(xs: seq<int>)
    requires |xs| > 0
    ensures var sorted := SortDescending(xs);
            Sum(sorted[..|xs| - 1]) == Sum(xs) - Lowest(xs)
  {
    SumDropLast(SortDescending(xs));
    SumSort(xs);
    LastOfSortIsMin(xs);
  }

  lemma DropLowestIsSumMinusMin(four: seq<int>)
    requires |four| == 4 && InRange(four, 6)
    ensures var sorted := SortDescending(four);
            Sum(sorted[..3]) == Sum(four) - Lowest(four) && 3 <= Sum(sorted[..3]) <= 18
  {
    var sorted := SortDescending(four);
    DropLastOfSort(four);
    SortKeepsRange(four, 6);
    assert InRange(sorted[..3], 6);
    SumBounds(sorted[..3], 6);
  }

  // ---------------------------------------------------------------------
  // Modifiers
  // ---------------------------------------------------------------------

  /** `get_modifier`: `(score - 10) // 2`, rounding toward negative
      infinity, so 9 gives -1. */
  function GetModifier(score: int): (m: int)
    ensures 2 * m <= score - 10 < 2 * m + 2
  {
    (score - 10) / 2
  }

  /** The modifier never decreases as the score grows. */
  lemma ModifierMonotone(s: int, t: int)
    requires s <= t
    ensures GetModifier(s) <= GetModifier(t)
  {
  }

  /** `format_modifier`: an explicit "+" for zero and positive values, the
      usual minus sign otherwise. */
  function FormatModifier(m: int): (r: string)
    ensures |r| >= 2
    ensures r[0] == '+' <==> m >= 0
    ensures r[0] == '-' <==> m < 0
    ensures AllDigits(r[1..])
    ensures |r| > 2 ==> r[1] != '0'
  {
    if m >= 0 then "+" + NatToString(m) else IntToString(m)
  }

  /** Reads back a signed numeral of the form `+digits` or `-digits`. */
  function ReadModifier(s: string): Option<int> {
    if |s| >= 2 && (s[0] == '+' || s[0] == '-') && AllDigits(s[1..]) then
      var v: int := DigitsValue(s[1..]);
      Some(if s[0] == '+' then v else -v)
    else None
  }

  lemma FormatModifierRoundTrip(m: int)
    ensures ReadModifier(FormatModifier(m)) == Some(m)
  {
    var r := FormatModifier(m);
    if m >= 0 {
      assert r[1..] == NatToString(m);
      NatToStringRoundTrip(m);
    } else {
      assert r[1..] == NatToString(-m);
      NatToStringRoundTrip(-m);
    }
  }
}

=== FILE: dice_text.dfy ===
/** Reading the printed form of a dice result (`DiceResult.__str__` in
    `src/dice_system.py`) back into the equation it states. The reading
    is the partner of the printing: it recovers the dice, the modifier and
    the total, and the equation it recovers balances. */
module DiceText {
  import opened Outcomes
  import opened Text
  import opened Dice

  /** What a printed result says: the numbers added, the number
      subtracted (if any) and the total after " = ". */
  datatype Equation = Equation(added: seq<int>, subtracted: Option<nat>, total: int)

  /** The printed equation is arithmetically true. */
  predicate Balances(e: Equation) {
    Sum(e.added) - e.subtracted.GetOr(0) == e.total
  }

  /** A leading run of digits and the text after it. */
  function ReadNumeral(s: string): (r: Option<(nat, string)>)
    ensures r.Some? ==> |r.value.1| < |s|
  {
    var k := LeadingDigits(s);
    if k == 0 then None else Some((DigitsValue(s[..k]), s[k..]))
  }

  /** The whole text as an optionally negative decimal integer. */
  function ReadSigned(s: string): Option<int> {
    if |s| > 1 && s[0] == '-' && AllDigits(s[1..]) then Some(0 - DigitsValue(s[1..]))
    else if |s| > 0 && AllDigits(s) then Some(DigitsValue(s))
    else None
  }

  /** The end of an equation after its last added numeral `v`: either
      " - m = t" or " = t". */
  function ReadEnd(v: nat, rest: string): Option<Equation> {
    if StartsWith(rest, " - ") then
      match ReadNumeral(rest[3..])
      case None => None
      case Some((m, after)) =>
        if StartsWith(after, " = ") then
          match ReadSigned(after[3..])
          case None => None
          case Some(t) => Some(Equation([v], Some(m), t))
        else None
    else if StartsWith(rest, " = ") then
      match ReadSigned(rest[3..])
      case None => None
      case Some(t) => Some(Equation([v], None, t))
    else None
  }

  /** `front` added before the numbers an equation already adds. */
  function AddedFirst(front: seq<int>, e: Option<Equation>): Option<Equation> {
    if e.None? then None else Some(e.value.(added := front + e.value.added))
  }

  /** The total after " = " read as a signed number. */
  function TotalOnly(v: nat, subtracted: Option<nat>, tail: string): Option<Equation> {
    match ReadSigned(tail)
    case None => None
    case Some(t) => Some(Equation([v], subtracted, t))
  }

  /** Reads `a + b + ... [- m] = t` back into its parts. */
  function ReadEquation(s: string): Option<Equation>
    decreases |s|
  {
    match ReadNumeral(s)
    case None => None
    case Some((v, rest)) =>
      if StartsWith(rest, " + ") then AddedFirst([v], ReadEquation(rest[3..]))
      else ReadEnd(v, rest)
  }

  /** The equation a result prints: its dice, plus a positive modifier as
      one more term added, or a negative one as the term subtracted. */
  function Printed(d: DiceResult): Equation {
    if d.modifier > 0 then Equation(d.rolls + [d.modifier], None, d.Total())
    else if d.modifier < 0 then Equation(d.rolls, Some(-d.modifier), d.Total())
    else Equation(d.rolls, None, d.Total())
  }

  /** Dice that print without a minus sign. */
  predicate NonNegative(xs: seq<int>) {
    forall i :: 0 <= i < |xs| ==> xs[i] >= 0
  }

  /** Reading the printed form of a result with at least one non-negative
      die gives back its dice, its modifier and its total, and the
      equation read balances. */
  lemma ResultTextReadBack(d: DiceResult)
    requires |d.rolls| > 0 && NonNegative(d.rolls)
    ensures ReadEquation(ResultText(d)) == Some(Printed(d))
    ensures Balances(Printed(d))
  {
    ReaderLaws();
    ReaderReadsResult(ReadEquation, d);
    if d.modifier > 0 {
      SumAppend(d.rolls, [d.modifier]);
    }
  }

  /** `__str__` writes the modifier between the dice and " = ". */
  function ModifierSuffix(m: int): string {
    if m > 0 then " + " + IntToString(m)
    else if m < 0 then " - " + IntToString(Abs(m))
    else ""
  }

  /** `v + tail`, `v - a = tail` and `v = tail` as printed. */
  function PlusText(v: nat, tail: string): string {
    NatToString(v) + (" + " + tail)
  }

  function MinusText(v: nat, a: nat, tail: string): string {
    NatToString(v) + (" - " + (NatToString(a) + (" = " + tail)))
  }

  function TotalText(v: nat, tail: string): string {
    NatToString(v) + (" = " + tail)
  }

  /** A numeral followed by " + " reads as that numeral added in front of
      what follows. */
  ghost predicate PlusLaw(read: string -> Option<Equation>) {
    forall v: nat, tail: string :: read(PlusText(v, tail)) == AddedFirst([v], read(tail))
  }

  /** A numeral, " - ", a numeral and " = " read as one term added, one
      subtracted and the total. */
  ghost predicate MinusLaw(read: string -> Option<Equation>) {
    forall v: nat, a: nat, tail: string :: read(MinusText(v, a, tail)) == TotalOnly(v, Some(a), tail)
  }

  /** A numeral followed by " = " reads as that numeral and the total. */
  ghost predicate TotalLaw(read: string -> Option<Equation>) {
    forall v: nat, tail: string :: read(TotalText(v, tail)) == TotalOnly(v, None, tail)
  }

  /** The reader above obeys the three laws. */
  lemma ReaderLaws()
    ensures PlusLaw(ReadEquation) && MinusLaw(ReadEquation) && TotalLaw(ReadEquation)
  {
    forall v: nat, tail: string
      ensures ReadEquation(PlusText(v, tail)) == AddedFirst([v], ReadEquation(tail))
    {
      ReadPlusStep(v, tail);
    }
    forall v: nat, a: nat, tail: string
      ensures ReadEquation(MinusText(v, a, tail)) == TotalOnly(v, Some(a), tail)
    {
      ReadMinusStep(v, a, tail);
    }
    forall v: nat, tail: string
      ensures ReadEquation(TotalText(v, tail)) == TotalOnly(v, None, tail)
    {
      ReadTotal(v, tail);
    }
  }

  /** Any reader obeying the three laws reads a printed result back as
      the equation it prints. */
  lemma ReaderReadsResult(read: string -> Option<Equation>, d: DiceResult)
    requires PlusLaw(read) && MinusLaw(read) && TotalLaw(read)
    requires |d.rolls| > 0 && NonNegative(d.rolls)
    ensures read(ResultText(d)) == Some(Printed(d))
  {
    var n := |d.rolls|;
    var last: nat := d.rolls[n - 1];
    var suffix := ModifierSuffix(d.modifier) + (" = " + IntToString(d.Total()));
    ResultTextParts(d);
    ReaderWalksTerms(read, d.rolls, suffix);
    ReaderReadsLast(read, last, d.modifier, d.Total());
    PrintedFromLast(d);
  }

  /** The equation read from the last die onwards. */
  function LastEquation(v: nat, m: int, t: int): Equation {
    if m > 0 then Equation([v, m], None, t)
    else if m < 0 then Equation([v], Some(-m), t)
    else Equation([v], None, t)
  }

  /** The printed equation is the one read from the last die, with the
      other dice added in front. */
  lemma PrintedFromLast(d: DiceResult)
    requires |d.rolls| > 0 && NonNegative(d.rolls)
    ensures var n := |d.rolls|;
            AddedFirst(d.rolls[..n - 1], Some(LastEquation(d.rolls[n - 1], d.modifier, d.Total()))) ==
              Some(Printed(d))
  {
    var n := |d.rolls|;
    assert d.rolls[..n - 1] + [d.rolls[n - 1]] == d.rolls;
    assert d.rolls[..n - 1] + [d.rolls[n - 1], d.modifier] == d.rolls + [d.modifier];
  }

  /** The last die, the modifier and the total read back. */
  lemma ReaderReadsLast(read: string -> Option<Equation>, v: nat, m: int, t: int)
    requires PlusLaw(read) && MinusLaw(read) && TotalLaw(read)
    ensures read(NatToString(v) + (ModifierSuffix(m) + (" = " + IntToString(t)))) == Some(LastEquation(v, m, t))
  {
    if m > 0 {
      ReaderReadsPositive(read, v, m, t);
    } else if m < 0 {
      ReaderReadsNegative(read, v, m, t);
    } else {
      ReaderReadsNoModifier(read, v, t);
    }
  }

  /** A positive modifier reads as one more term added. */
  lemma ReaderReadsPositive(read: string -> Option<Equation>, v: nat, m: nat, t: int)
    requires PlusLaw(read) && TotalLaw(read)
    requires m > 0
    ensures read(NatToString(v) + (ModifierSuffix(m) + (" = " + IntToString(t)))) == Some(Equation([v, m], None, t))
  {
    var tail := IntToString(t);
    var x := TotalText(m, tail);
    ReadSignedRoundTrip(t);
    assert ModifierSuffix(m) == " + " + NatToString(m);
    ConcatAssoc(" + ", NatToString(m), " = " + tail);
    assert read(PlusText(v, x)) == AddedFirst([v], read(x));
    assert read(x) == Some(Equation([m], None, t));
    assert [v] + [m] == [v, m];
  }

  /** A negative modifier reads as the term subtracted. */
  lemma ReaderReadsNegative(read: string -> Option<Equation>, v: nat, m: int, t: int)
    requires MinusLaw(read)
    requires m < 0
    ensures read(NatToString(v) + (ModifierSuffix(m) + (" = " + IntToString(t)))) == Some(Equation([v], Some(-m), t))
  {
    var tail := IntToString(t);
    var a: nat := Abs(m);
    ReadSignedRoundTrip(t);
    assert ModifierSuffix(m) == " - " + NatToString(a);
    ConcatAssoc(" - ", NatToString(a), " = " + tail);
    assert read(MinusText(v, a, tail)) == TotalOnly(v, Some(a), tail);
    assert TotalOnly(v, Some(a), tail) == Some(Equation([v], Some(-m), t));
  }

  /** Without a modifier the last die is followed directly by the total. */
  lemma ReaderReadsNoModifier(read: string -> Option<Equation>, v: nat, t: int)
    requires TotalLaw(read)
    ensures read(NatToString(v) + (ModifierSuffix(0) + (" = " + IntToString(t)))) == Some(Equation([v], None, t))
  {
    var tail := IntToString(t);
    ReadSignedRoundTrip(t);
    assert ModifierSuffix(0) + (" = " + tail) == " = " + tail;
    assert read(TotalText(v, tail)) == TotalOnly(v, None, tail);
  }

  /** The printed result is the dice, then the modifier suffix, then
      " = " and the total. */
  lemma ResultTextParts(d: DiceResult)
    ensures ResultText(d) == RollsText(d.rolls) + (ModifierSuffix(d.modifier) + (" = " + IntToString(d.Total())))
  {
  }

  /** A law-abiding reader walks over the dice joined by " + "; what
      follows the last one is read as after a single numeral. */
  lemma {:induction false} ReaderWalksTerms(read: string -> Option<Equation>, xs: seq<int>, suffix: string)
    requires PlusLaw(read)
    requires |xs| > 0 && NonNegative(xs)
    ensures read(RollsText(xs) + suffix) ==
              AddedFirst(xs[..|xs| - 1], read(NatToString(xs[|xs| - 1]) + suffix))
    decreases |xs|, 1
  {
    if |xs| == 1 {
      assert RollsText(xs) == NatToString(xs[0]);
      assert xs[..0] == [];
      AddedNothing(read(NatToString(xs[0]) + suffix));
    } else {
      ReaderWalksFirst(read, xs, suffix);
    }
  }

  /** The step of the walk: the first die, then the others. */
  lemma {:induction false} ReaderWalksFirst(read: string -> Option<Equation>, xs: seq<int>, suffix: string)
    requires PlusLaw(read)
    requires |xs| > 1 && NonNegative(xs)
    ensures read(RollsText(xs) + suffix) ==
              AddedFirst(xs[..|xs| - 1], read(NatToString(xs[|xs| - 1]) + suffix))
    decreases |xs|, 0
  {
    var first: nat := xs[0];
    var rest := xs[1..];
    var tail := RollsText(rest) + suffix;
    var lastText := NatToString(xs[|xs| - 1]) + suffix;
    assert read(RollsText(xs) + suffix) == AddedFirst([first], read(tail)) by {
      RollsTextCons(xs);
      ConcatThree(NatToString(first), " + ", RollsText(rest), suffix);
      assert RollsText(xs) + suffix == PlusText(first, tail);
    }
    assert rest[|rest| - 1] == xs[|xs| - 1];
    ReaderWalksTerms(read, rest, suffix);
    AddedFirstTwice([first], rest[..|rest| - 1], read(lastText));
    assert [first] + rest[..|rest| - 1] == xs[..|xs| - 1];
  }

  /** The dice text is the first die, " + " and the text of the others. */
  lemma RollsTextCons(xs: seq<int>)
    requires |xs| > 1 && xs[0] >= 0
    ensures RollsText(xs) == NatToString(xs[0]) + " + " + RollsText(xs[1..])
  {
  }

  /** Concatenation regrouped to the right. */
  lemma ConcatAssoc(a: string, b: string, c: string)
    ensures a + b + c == a + (b + c)
  {
  }

  /** Concatenation of four parts regrouped to the right. */
  lemma ConcatThree(a: string, b: string, c: string, d: string)
    ensures a + b + c + d == a + (b + (c + d))
  {
  }

  /** Adding no terms in front changes nothing. */
  lemma AddedNothing(e: Option<Equation>)
    ensures AddedFirst([], e) == e
  {
    if e.Some? {
      assert [] + e.value.added == e.value.added;
    }
  }

  /** Adding terms in front twice adds both runs, in order. */
  lemma AddedFirstTwice(front: seq<int>, more: seq<int>, e: Option<Equation>)
    ensures AddedFirst(front, AddedFirst(more, e)) == AddedFirst(front + more, e)
  {
    if e.Some? {
      assert front + (more + e.value.added) == (front + more) + e.value.added;
    }
  }

  /** A numeral followed by " = " reads as that numeral alone and the
      total. */
  lemma ReadTotal(v: nat, tail: string)
    ensures ReadEquation(NatToString(v) + (" = " + tail)) == TotalOnly(v, None, tail)
  {
    var end := " = " + tail;
    assert end[3..] == tail;
    NatToStringRoundTrip(v);
    ReadNumeralOf(NatToString(v), end);
  }

  /** A numeral, " - ", a second numeral and " = " read as one term added,
      one subtracted and the total. */
  lemma ReadMinusStep(v: nat, a: nat, tail: string)
    ensures ReadEquation(NatToString(v) + (" - " + (NatToString(a) + (" = " + tail)))) ==
              TotalOnly(v, Some(a), tail)
  {
    var end := " = " + tail;
    var rest := " - " + (NatToString(a) + end);
    assert end[3..] == tail;
    NatToStringRoundTrip(a);
    ReadNumeralOf(NatToString(a), end);
    NatToStringRoundTrip(v);
    ReadNumeralOf(NatToString(v), rest);
    assert rest[3..] == NatToString(a) + end;
  }

  /** A numeral followed by " + " reads as that numeral added in front
      of the rest. */
  lemma ReadPlusStep(v: nat, tail: string)
    ensures ReadEquation(NatToString(v) + (" + " + tail)) == AddedFirst([v], ReadEquation(tail))
  {
    var rest := " + " + tail;
    NatToStringRoundTrip(v);
    ReadNumeralOf(NatToString(v), rest);
    assert rest[3..] == tail;
  }

  /** A digit string followed by a non-digit reads as its value. */
  lemma ReadNumeralOf(digits: string, rest: string)
    requires |digits| > 0 && AllDigits(digits)
    requires rest == [] || !IsDigit(rest[0])
    ensures ReadNumeral(digits + rest) == Some((DigitsValue(digits), rest))
  {
    LeadingDigitsOfConcat(digits, rest);
  }

  /** `str(t)` reads back as `t`. */
  lemma ReadSignedRoundTrip(t: int)
    ensures ReadSigned(IntToString(t)) == Some(t)
  {
    if t >= 0 {
      NatToStringRoundTrip(t);
    } else {
      var digits := NatToString(-t);
      NatToStringRoundTrip(-t);
      assert ("-" + digits)[1..] == digits;
    }
  }

  /** The printed form does not tell a positive modifier from one more
      die: two dice with +2 print like three dice. */
  lemma PositiveModifierPrintsLikeADie()
    ensures ResultText(DiceResult([3, 4], 6, 2, "")) == ResultText(DiceResult([3, 4, 2], 6, 0, ""))
  {
  }
}

=== FILE: display.dfy ===
/** The display helpers of `src/ascii_art.py` that compute something: the
    health indicator, the first-match location and item labels, and the
    box-drawing borders. */
module Display {
  import opened Outcomes
  import opened Text

  // ---------------------------------------------------------------------
  // Health indicator
  // ---------------------------------------------------------------------

  /** The five health bands, worst first. */
  datatype Band = Critical | Low | Medium | Good | Full {
    function Rank(): nat {
      match this
      case Critical => 0
      case Low => 1
      case Medium => 2
      case Good => 3
      case Full => 4
    }

    function Symbol(): string {
      match this
      case Critical => "[X]"
      case Low => "[!]"
      case Medium => "[~]"
      case Good => "[+]"
      case Full => "[*]"
    }
  }

  /** Dividing positive hit points by a zero maximum raises. */
  datatype DisplayError = ZeroDivision

  /** `get_health_indicator`'s choice of band. Non-positive hit points are
      critical; otherwise the ratio `hp / max_hp` is compared with 1, 3/4,
      1/2 and 1/4, here by cross-multiplying. */
  function HealthBand(hp: int, maxHp: int): (r: Result<Band, DisplayError>)
    ensures r.Err? <==> hp > 0 && maxHp == 0
    ensures hp <= 0 ==> r == Ok(Critical)
    ensures hp > 0 && maxHp < 0 ==> r == Ok(Critical)
    ensures hp > 0 && maxHp > 0 ==>
              && r.Ok?
              && (r.value == Full <==> hp >= maxHp)
              && (r.value.Rank() >= Good.Rank() <==> 4 * hp >= 3 * maxHp)
              && (r.value.Rank() >= Medium.Rank() <==> 2 * hp >= maxHp)
              && (r.value.Rank() >= Low.Rank() <==> 4 * hp >= maxHp)
  {
    if hp <= 0 then Ok(Critical)
    else if maxHp == 0 then Err(ZeroDivision)
    else if maxHp < 0 then Ok(Critical)
    else if hp >= maxHp then Ok(Full)
    else if 4 * hp >= 3 * maxHp then Ok(Good)
    else if 2 * hp >= maxHp then Ok(Medium)
    else if 4 * hp >= maxHp then Ok(Low)
    else Ok(Critical)
  }

  /** `get_health_indicator`: the band's symbol. */
  function HealthIndicator(hp: int, maxHp: int): (r: Result<string, DisplayError>)
    ensures r.Ok? <==> HealthBand(hp, maxHp).Ok?
    ensures r.Ok? ==> r.value == HealthBand(hp, maxHp).value.Symbol()
  {
    var band :- HealthBand(hp, maxHp);
    Ok(band.Symbol())
  }

  /** More hit points never show a worse band. */
  lemma HealthBandMonotone(hp1: int, hp2: int, maxHp: int)
    requires hp1 <= hp2 && maxHp > 0
    ensures HealthBand(hp1, maxHp).value.Rank() <= HealthBand(hp2, maxHp).value.Rank()
  {
  }

  /** Different bands show different symbols, so the indicator tells the
      band. */
  lemma SymbolsAreDistinct(a: Band, b: Band)
    requires a.Symbol() == b.Symbol()
    ensures a == b
  {
    assert a.Symbol()[1] == b.Symbol()[1];
  }

  // ---------------------------------------------------------------------
  // First-match labels
  // ---------------------------------------------------------------------

  /** The position of the first entry whose key occurs in `text`. */
  function FirstMatch(table: seq<(string, string)>, text: string): (r: Option<nat>)
    ensures r.Some? ==> r.value < |table| && Contains(text, table[r.value].0)
    ensures r.Some? ==> forall k :: 0 <= k < r.value ==> !Contains(text, table[k].0)
    ensures r.None? ==> forall k :: 0 <= k < |table| ==> !Contains(text, table[k].0)
  {
    if |table| == 0 then None
    else if Contains(text, table[0].0) then Some(0)
    else
      match FirstMatch(table[1..], text)
      case None => None
      case Some(i) => Some(i + 1)
  }

  /** The value of the first entry whose key occurs in `text`, or the value
      kept under "default". */
  function Label(table: seq<(string, string)>, default: string, text: string): (r: string)
    ensures r == default || exists k :: 0 <= k < |table| && r == table[k].1
    ensures forall k ::
              (0 <= k < |table| && Contains(text, table[k].0)
               && forall j :: 0 <= j < k ==> !Contains(text, table[j].0)) ==> r == table[k].1
    ensures (forall k :: 0 <= k < |table| ==> !Contains(text, table[k].0)) ==> r == default
  {
    match FirstMatch(table, text)
    case Some(i) => table[i].1
    case None => default
  }

  const LocationPrefixes: seq<(string, string)> := [
    ("village", "[Village]"), ("town", "[Town]"), ("forest", "[Forest]"), ("dungeon", "[Dungeon]"),
    ("cave", "[Cave]"), ("mountain", "[Mountain]"), ("desert", "[Desert]"), ("swamp", "[Swamp]"),
    ("tavern", "[Tavern]"), ("inn", "[Inn]"), ("shop", "[Shop]"), ("castle", "[Castle]"),
    ("tower", "[Tower]"), ("ruins", "[Ruins]"), ("temple", "[Temple]"), ("library", "[Library]"),
    ("default", "[Location]")]

  const ItemTypes: seq<(string, string)> := [
    ("sword", "[Weapon]"), ("blade", "[Weapon]"), ("shield", "[Armor]"), ("potion", "[Consumable]"),
    ("elixir", "[Consumable]"), ("gold", "[Currency]"), ("coin", "[Currency]"), ("key", "[Key Item]"),
    ("scroll", "[Scroll]"), ("bow", "[Weapon]"), ("armor", "[Armor]"), ("helm", "[Armor]"),
    ("ring", "[Accessory]"), ("gem", "[Valuable]"), ("crystal", "[Magical]"), ("book", "[Readable]"),
    ("tome", "[Readable]"), ("staff", "[Weapon]"), ("wand", "[Weapon]"), ("dagger", "[Weapon]"),
    ("default", "[Item]")]

  /** `get_location_prefix`: the first location word found in the
      lower-cased name, else the "default" entry. */
  function LocationPrefix(location: string): (r: string)
    ensures exists k :: 0 <= k < |LocationPrefixes| && r == LocationPrefixes[k].1
    ensures var i := FirstMatch(LocationPrefixes, Lower(location));
            i.Some? ==> r == LocationPrefixes[i.value].1
    ensures FirstMatch(LocationPrefixes, Lower(location)).None? ==> r == "[Location]"
  {
    var last := |LocationPrefixes| - 1;
    assert LocationPrefixes[last] == ("default", "[Location]");
    Label(LocationPrefixes, LocationPrefixes[last].1, Lower(location))
  }

  /** `get_item_type`: the first item word found in the lower-cased name,
      else the "default" entry. */
  function ItemType(item: string): (r: string)
    ensures exists k :: 0 <= k < |ItemTypes| && r == ItemTypes[k].1
    ensures var i := FirstMatch(ItemTypes, Lower(item));
            i.Some? ==> r == ItemTypes[i.value].1
    ensures FirstMatch(ItemTypes, Lower(item)).None? ==> r == "[Item]"
  {
    var last := |ItemTypes| - 1;
    assert ItemTypes[last] == ("default", "[Item]");
    Label(ItemTypes, ItemTypes[last].1, Lower(item))
  }

  /** Lower-casing twice is lower-casing once. */
  lemma LowerIdempotent(s: string)
    ensures Lower(Lower(s)) == Lower(s)
  {
    assert forall i :: 0 <= i < |s| ==> LowerChar(LowerChar(s[i])) == LowerChar(s[i]);
  }

  /** The labels ignore letter case. */
  lemma LabelsIgnoreCase(name: string)
    ensures LocationPrefix(Lower(name)) == LocationPrefix(name)
    ensures ItemType(Lower(name)) == ItemType(name)
  {
    LowerIdempotent(name);
  }

  // ---------------------------------------------------------------------
  // Borders
  // ---------------------------------------------------------------------

  /** One border line: `left + fill * (width - 2) + right`. */
  function BorderLine(left: char, fill: char, right: char, width: int): (r: string)
    ensures |r| == if width >= 2 then width else 2
    ensures r[0] == left && r[|r| - 1] == right
    ensures forall i :: 0 < i < |r| - 1 ==> r[i] == fill
  {
    [left] + Repeat(fill, width - 2) + [right]
  }

  /** The three lines of a box. */
  datatype Box = Box(top: string, middle: string, bottom: string)

  /** A box whose three lines have the same length. */
  predicate Aligned(b: Box) {
    |b.top| == |b.middle| == |b.bottom|
  }

  /** The characters of one border style. */
  datatype Style = Style(topLeft: char, topRight: char, bottomLeft: char, bottomRight: char,
                         horizontal: char, vertical: char)

  /** Rounded corners and light lines. */
  const Rounded := Style('\U{256D}', '\U{256E}', '\U{2570}', '\U{256F}', '\U{2500}', '\U{2502}')

  /** Double lines throughout. */
  const DoubleLine := Style('\U{2554}', '\U{2557}', '\U{255A}', '\U{255D}', '\U{2550}', '\U{2551}')

  /** The three lines of a border drawn in `style`: corners at both ends of
      the top and bottom lines, the horizontal character between them, and
      a blank middle line between two vertical characters. */
  function Frame(style: Style, width: int): (b: Box)
    ensures Aligned(b) && |b.top| == (if width >= 2 then width else 2)
    ensures b.top[0] == style.topLeft && b.top[|b.top| - 1] == style.topRight
    ensures b.bottom[0] == style.bottomLeft && b.bottom[|b.bottom| - 1] == style.bottomRight
    ensures b.middle[0] == style.vertical && b.middle[|b.middle| - 1] == style.vertical
    ensures forall i :: 0 < i < |b.top| - 1 ==>
              b.top[i] == style.horizontal && b.bottom[i] == style.horizontal && b.middle[i] == ' '
  {
    Box(BorderLine(style.topLeft, style.horizontal, style.topRight, width),
        BorderLine(style.vertical, ' ', style.vertical, width),
        BorderLine(style.bottomLeft, style.horizontal, style.bottomRight, width))
  }

  /** `create_fancy_border`. */
  function FancyBorder(width: int): Box {
    Frame(Rounded, width)
  }

  /** `create_double_border`. */
  function DoubleBorder(width: int): Box {
    Frame(DoubleLine, width)
  }
}

=== FILE: game.dfy ===
/** The persistent game state of `src/game_state.py`: the player
    character, the story history and its sliding window, the history text
    handed to the narrator, and the record form the save file holds. */
module Game {
  import opened Outcomes
  import opened Text

  /** The player: name, hit points, their maximum, and the inventory in
      the order items were picked up. */
  datatype Character = Character(name: string, hp: int, maxHp: int, inventory: seq<string>)

  /** One session: the player, the story so far as "Player: …" / "DM: …"
      entries, where the player is, and how many turns the history keeps. */
  datatype GameState = GameState(
    player: Character,
    storyHistory: seq<string>,
    currentLocation: string,
    maxHistoryTurns: int)

  const PlayerPrefix := "Player: "
  const DmPrefix := "DM: "
  const BeginningText := "This is the beginning of your adventure."
  const DefaultLocation := "Unknown"
  const DefaultHistoryTurns := 10

  // ---------------------------------------------------------------------
  // History window
  // ---------------------------------------------------------------------

  /** `add_to_history`: one turn appends the player's action and then the
      narrator's reply. */
  function AddToHistory(history: seq<string>, action: string, narrative: string): (r: seq<string>)
    ensures |r| == |history| + 2
    ensures r[..|history|] == history
    ensures r[|history|] == PlayerPrefix + action && r[|history| + 1] == DmPrefix + narrative
  {
    history + [PlayerPrefix + action, DmPrefix + narrative]
  }

  /** Python's `xs[start:]`, where a negative `start` counts from the end
      and an out-of-range `start` is clipped. */
  function SliceFrom(xs: seq<string>, start: int): (r: seq<string>)
    ensures start >= 0 ==> r == if start >= |xs| then [] else xs[start..]
    ensures start < 0 ==> r == if -start >= |xs| then xs else xs[|xs| + start..]
  {
    if start >= 0 then (if start >= |xs| then [] else xs[start..])
    else if -start >= |xs| then xs
    else xs[|xs| + start..]
  }

  /** `prune_history`: when the history holds more than `2 * maxTurns`
      entries, keep `history[-(2 * maxTurns):]`. */
  function PruneHistory(history: seq<string>, maxTurns: int): (r: seq<string>)
    ensures |r| <= |history| && r == history[|history| - |r|..]
    ensures maxTurns >= 1 ==> |r| == if |history| > 2 * maxTurns then 2 * maxTurns else |history|
    ensures maxTurns == 0 ==> r == history
    ensures maxTurns < 0 ==> r == if -2 * maxTurns >= |history| then [] else history[-2 * maxTurns..]
  {
    var keep := maxTurns * 2;
    if |history| > keep then SliceFrom(history, -keep) else history
  }

  /** Whatever the limit, pruning an even-length history leaves an
      even-length one: whole turns go. */
  lemma PruneKeepsEvenLength(history: seq<string>, maxTurns: int)
    requires |history| % 2 == 0
    ensures |PruneHistory(history, maxTurns)| % 2 == 0
  {
  }

  /** `prune_history(None)` falls back on the state's own turn limit. */
  function PruneState(gs: GameState, maxTurns: Option<int>): (r: GameState)
    ensures r.player == gs.player && r.currentLocation == gs.currentLocation
    ensures r.maxHistoryTurns == gs.maxHistoryTurns
    ensures r.storyHistory == PruneHistory(gs.storyHistory, maxTurns.GetOr(gs.maxHistoryTurns))
  {
    var turns := maxTurns.GetOr(gs.maxHistoryTurns);
    gs.(storyHistory := PruneHistory(gs.storyHistory, turns))
  }

  /** Entries come in Player/DM pairs: even length, a player line at every
      even position and a narrator line after it. */
  predicate WellPaired(history: seq<string>) {
    && |history| % 2 == 0
    && forall i :: 0 <= i < |history| ==>
         (i % 2 == 0 ==> StartsWith(history[i], PlayerPrefix)) &&
         (i % 2 == 1 ==> StartsWith(history[i], DmPrefix))
  }

  /** Adding a turn and pruning the window keeps the pairing, for every
      turn limit. */
  lemma {:induction false} AddThenPruneKeepsPairs(history: seq<string>, action: string, narrative: string, maxTurns: int)
    requires WellPaired(history)
    ensures WellPaired(PruneHistory(AddToHistory(history, action, narrative), maxTurns))
  {
    var added := AddToHistory(history, action, narrative);
    assert WellPaired(added) by {
      forall i | 0 <= i < |added|
        ensures (i % 2 == 0 ==> StartsWith(added[i], PlayerPrefix)) &&
                (i % 2 == 1 ==> StartsWith(added[i], DmPrefix))
      {
        if i < |history| {
          assert added[i] == history[i];
        } else if i == |history| {
          assert added[i][..|PlayerPrefix|] == PlayerPrefix;
        } else {
          assert added[i][..|DmPrefix|] == DmPrefix;
        }
      }
    }
    SuffixKeepsPairs(added, maxTurns);
  }

  lemma SuffixKeepsPairs(history: seq<string>, maxTurns: int)
    requires WellPaired(history)
    ensures WellPaired(PruneHistory(history, maxTurns))
  {
    var r := PruneHistory(history, maxTurns);
    PruneKeepsEvenLength(history, maxTurns);
    EvenDropKeepsPairs(history, |history| - |r|);
  }

  /** Dropping an even number of the oldest entries keeps the pairing. */
  lemma EvenDropKeepsPairs(history: seq<string>, drop: nat)
    requires WellPaired(history) && drop <= |history| && drop % 2 == 0
    ensures WellPaired(history[drop..])
  {
    var r := history[drop..];
    forall i | 0 <= i < |r|
      ensures (i % 2 == 0 ==> StartsWith(r[i], PlayerPrefix)) &&
              (i % 2 == 1 ==> StartsWith(r[i], DmPrefix))
    {
      assert r[i] == history[drop + i];
      assert (drop + i) % 2 == i % 2;
    }
  }

  /** `get_history_text`: a fixed opening line for an empty history, the
      entries one per line otherwise. */
  function HistoryText(history: seq<string>): (r: string)
    ensures history == [] ==> r == BeginningText
    ensures |history| > 0 ==> Joins(r, "\n", history)
  {
    JoinLaysOutItems("\n", history);
    if |history| == 0 then BeginningText else Join("\n", history)
  }

  /** The history text can be split back into the entries, provided none
      of them holds a newline itself. */
  lemma HistoryTextRoundTrip(history: seq<string>)
    requires |history| > 0
    requires forall k :: 0 <= k < |history| ==> NoNewline(history[k])
    ensures SplitLines(HistoryText(history)) == history
  {
    SplitJoinedLines(history);
  }

  // ---------------------------------------------------------------------
  // Record form
  // ---------------------------------------------------------------------

  /** A JSON value as the save file stores it. */
  datatype Json =
    | JNull
    | JBool(b: bool)
    | JInt(i: int)
    | JStr(s: string)
    | JArr(items: seq<Json>)
    | JObj(fields: map<string, Json>)

  function EncodeStrings(xs: seq<string>): (r: seq<Json>)
    ensures |r| == |xs|
    ensures forall i :: 0 <= i < |xs| ==> r[i] == JStr(xs[i])
  {
    if |xs| == 0 then [] else [JStr(xs[0])] + EncodeStrings(xs[1..])
  }

  /** A JSON array of strings as a list; anything else is refused. */
  function DecodeStrings(items: seq<Json>): (r: Option<seq<string>>)
    ensures r.Some? <==> forall i :: 0 <= i < |items| ==> items[i].JStr?
    ensures r.Some? ==> |r.value| == |items| && forall i :: 0 <= i < |items| ==> r.value[i] == items[i].s
  {
    if |items| == 0 then Some([])
    else if !items[0].JStr? then None
    else match DecodeStrings(items[1..])
      case None => None
      case Some(rest) => Some([items[0].s] + rest)
  }

  /** `Character.to_dict`; `from_dict` reads the record back as `c`. */
  function EncodeCharacter(c: Character): (r: Json)
    ensures DecodeCharacter(r) == Some(c)
  {
    StringsRoundTrip(c.inventory);
    JObj(map[
      "name" := JStr(c.name),
      "hp" := JInt(c.hp),
      "max_hp" := JInt(c.maxHp),
      "inventory" := JArr(EncodeStrings(c.inventory))])
  }

  /** An optional list field: absent or `null` reads as the empty list (the
      constructor's `or []`), a string array as itself. */
  function OptionalStrings(fields: map<string, Json>, key: string): Option<seq<string>> {
    if key !in fields || fields[key].JNull? then Some([])
    else if fields[key].JArr? then DecodeStrings(fields[key].items)
    else None
  }

  /** `Character.from_dict`: name, hp and max_hp are mandatory; a missing
      inventory is empty. */
  function DecodeCharacter(j: Json): (r: Option<Character>)
    ensures r.Some? ==> j.JObj? && "name" in j.fields && "hp" in j.fields && "max_hp" in j.fields
    ensures j.JObj? && "inventory" !in j.fields && r.Some? ==> r.value.inventory == []
    ensures j.JObj? && "name" in j.fields && j.fields["name"].JStr?
            && "hp" in j.fields && j.fields["hp"].JInt? && "max_hp" in j.fields && j.fields["max_hp"].JInt?
            && ("inventory" !in j.fields || j.fields["inventory"].JNull?) ==>
              r == Some(Character(j.fields["name"].s, j.fields["hp"].i, j.fields["max_hp"].i, []))
  {
    if !j.JObj? then None
    else
      var f := j.fields;
      if "name" !in f || "hp" !in f || "max_hp" !in f then None
      else if !f["name"].JStr? || !f["hp"].JInt? || !f["max_hp"].JInt? then None
      else match OptionalStrings(f, "inventory")
        case None => None
        case Some(inventory) => Some(Character(f["name"].s, f["hp"].i, f["max_hp"].i, inventory))
  }

  lemma {:induction false} StringsRoundTrip(xs: seq<string>)
    ensures DecodeStrings(EncodeStrings(xs)) == Some(xs)
  {
    if |xs| > 0 {
      StringsRoundTrip(xs[1..]);
      assert EncodeStrings(xs)[1..] == EncodeStrings(xs[1..]);
      assert [xs[0]] + xs[1..] == xs;
    }
  }

  /** The record `save_to_json` writes; loading it gives back `gs`. */
  function EncodeGameState(gs: GameState): (r: Json)
    ensures DecodeGameState(r) == Some(gs)
  {
    StringsRoundTrip(gs.storyHistory);
    JObj(map[
      "player" := EncodeCharacter(gs.player),
      "story_history" := JArr(EncodeStrings(gs.storyHistory)),
      "current_location" := JStr(gs.currentLocation),
      "max_history_turns" := JInt(gs.maxHistoryTurns)])
  }

  /** The decoding half of `load_from_json`: the player is mandatory,
      the other fields have defaults; a failed read gives no state. */
  function DecodeGameState(j: Json): (r: Option<GameState>)
    ensures r.Some? ==> j.JObj? && "player" in j.fields
    ensures r.Some? && "story_history" !in j.fields ==> r.value.storyHistory == []
    ensures r.Some? && "current_location" !in j.fields ==> r.value.currentLocation == DefaultLocation
    ensures r.Some? && "max_history_turns" !in j.fields ==> r.value.maxHistoryTurns == DefaultHistoryTurns
  {
    if !j.JObj? || "player" !in j.fields then None
    else
      var f := j.fields;
      match DecodeCharacter(f["player"])
      case None => None
      case Some(player) =>
        match OptionalStrings(f, "story_history")
        case None => None
        case Some(history) =>
          var location := if "current_location" in f then f["current_location"] else JStr(DefaultLocation);
          var turns := if "max_history_turns" in f then f["max_history_turns"] else JInt(DefaultHistoryTurns);
          if !location.JStr? || !turns.JInt? then None
          else Some(GameState(player, history, location.s, turns.i))
  }

  /** A record holding only a player decodes with all the defaults. */
  lemma DecodeDefaults(c: Character)
    ensures DecodeGameState(JObj(map["player" := EncodeCharacter(c)]))
            == Some(GameState(c, [], DefaultLocation, DefaultHistoryTurns))
  {
  }

  /** Without a player, or a player without name, hp or max_hp, there is
      no state. */
  lemma MissingMandatoryKeyGivesNothing(j: Json)
    requires j.JObj?
    requires "player" !in j.fields ||
             (j.fields["player"].JObj? &&
              var p := j.fields["player"].fields; "name" !in p || "hp" !in p || "max_hp" !in p)
    ensures DecodeGameState(j) == None
  {
  }
}

=== FILE: narrator.dfy ===
/** The narrative response contract of `src/ai_manager.py`: the one-way
    switch from the language-model backend to the keyword-driven fallback
    narrator, the context handed to the backend, the default-filling of a
    backend reply, and the fallback narrator itself.

    The backend is a parameter: a function from the context to its
    outcome (a parsed reply, a reply that is not JSON, or a failed call).
    The fallback narrator's random choice of destination is an index
    into the list it chooses from. */
module Narrator {
  import opened Outcomes
  import opened Text
  import opened Game

  // ---------------------------------------------------------------------
  // Mode
  // ---------------------------------------------------------------------

  /** Whether the manager still talks to the backend. */
  datatype Mode = Connected | Fallback

  /** The constructor: fallback from the start when backend setup fails. */
  function InitialMode(setupSucceeded: bool): (m: Mode)
    ensures m == Connected <==> setupSucceeded
  {
    if setupSucceeded then Connected else Fallback
  }

  /** The only change of mode ever made is Connected to Fallback. */
  predicate AllowedTransition(before: Mode, after: Mode) {
    before == after || (before == Connected && after == Fallback)
  }

  // ---------------------------------------------------------------------
  // Replies
  // ---------------------------------------------------------------------

  /** A reply as a dictionary with five known keys, each possibly absent. */
  datatype Reply = Reply(
    narrative: Option<string>,
    location: Option<string>,
    hpChange: Option<int>,
    itemsAdded: Option<seq<string>>,
    itemsRemoved: Option<seq<string>>)

  predicate Complete(r: Reply) {
    r.narrative.Some? && r.location.Some? && r.hpChange.Some? && r.itemsAdded.Some? && r.itemsRemoved.Some?
  }

  /** A default value, of the kind the key expects. */
  datatype Value = StrValue(s: string) | IntValue(n: int) | ListValue(xs: seq<string>)

  const RequiredKeys: seq<string> := ["narrative", "location", "hp_change", "items_added", "items_removed"]

  /** The defaults table of `_get_default_value`. */
  const Defaults: map<string, Value> := map[
    "narrative" := StrValue("The adventure continues..."),
    "location" := StrValue("Unknown"),
    "hp_change" := IntValue(0),
    "items_added" := ListValue([]),
    "items_removed" := ListValue([])]

  /** `_get_default_value`: the five known defaults, and the empty string for
      any other key. */
  function DefaultValue(key: string): (v: Value)
    ensures key == "narrative" ==> v == StrValue("The adventure continues...")
    ensures key == "location" ==> v == StrValue("Unknown")
    ensures key == "hp_change" ==> v == IntValue(0)
    ensures key == "items_added" ==> v == ListValue([])
    ensures key == "items_removed" ==> v == ListValue([])
    ensures key !in RequiredKeys ==> v == StrValue("")
  {
    if key in Defaults then Defaults[key] else StrValue("")
  }

  /** The key-filling loop in `get_ai_response`: missing keys get their
      defaults, keys the reply has are left as they are. */
  function FillDefaults(r: Reply): (f: Reply)
    ensures Complete(f)
    ensures r.narrative.Some? ==> f.narrative == r.narrative
    ensures r.location.Some? ==> f.location == r.location
    ensures r.hpChange.Some? ==> f.hpChange == r.hpChange
    ensures r.itemsAdded.Some? ==> f.itemsAdded == r.itemsAdded
    ensures r.itemsRemoved.Some? ==> f.itemsRemoved == r.itemsRemoved
    ensures r.narrative.None? ==> f.narrative == Some("The adventure continues...")
    ensures r.location.None? ==> f.location == Some("Unknown")
    ensures r.hpChange.None? ==> f.hpChange == Some(0)
    ensures r.itemsAdded.None? ==> f.itemsAdded == Some([])
    ensures r.itemsRemoved.None? ==> f.itemsRemoved == Some([])
  {
    Reply(
      Some(r.narrative.GetOr(DefaultValue("narrative").s)),
      Some(r.location.GetOr(DefaultValue("location").s)),
      Some(r.hpChange.GetOr(DefaultValue("hp_change").n)),
      Some(r.itemsAdded.GetOr(DefaultValue("items_added").xs)),
      Some(r.itemsRemoved.GetOr(DefaultValue("items_removed").xs)))
  }

  /** A reply with none of the keys becomes the all-defaults reply, which
      reports nothing happening: no damage or healing, no items moved. */
  lemma EmptyReplyDefaults()
    ensures var f := FillDefaults(Reply(None, None, None, None, None));
            && f == Reply(Some("The adventure continues..."), Some("Unknown"), Some(0), Some([]), Some([]))
            && f.hpChange.value == 0 && f.itemsAdded.value == f.itemsRemoved.value == []
  {
  }

  /** Filling twice changes nothing more. */
  lemma FillDefaultsIdempotent(r: Reply)
    ensures FillDefaults(FillDefaults(r)) == FillDefaults(r)
  {
  }

  // ---------------------------------------------------------------------
  // Context
  // ---------------------------------------------------------------------

  /** What the backend is asked with. */
  datatype Context = Context(
    playerName: string,
    currentHp: int,
    maxHp: int,
    currentLocation: string,
    inventory: string,
    storyHistory: string,
    userInput: string)

  /** The inventory as the context shows it: the items joined by ", ", or
      "Empty" when there are none. */
  function InventoryText(inventory: seq<string>): (r: string)
    ensures inventory == [] ==> r == "Empty"
    ensures |inventory| == 1 ==> r == inventory[0]
    ensures |inventory| > 0 ==> StartsWith(r, inventory[0])
    ensures |inventory| > 0 ==> Joins(r, ", ", inventory)
  {
    JoinLaysOutItems(", ", inventory);
    if |inventory| > 0 then Join(", ", inventory) else "Empty"
  }

  /** The context built from the game state and the player's input. */
  function BuildContext(gs: GameState, input: string): (c: Context)
    ensures c.playerName == gs.player.name && c.currentHp == gs.player.hp && c.maxHp == gs.player.maxHp
    ensures c.currentLocation == gs.currentLocation && c.userInput == input
    ensures c.storyHistory == HistoryText(gs.storyHistory)
    ensures c.inventory == InventoryText(gs.player.inventory)
  {
    Context(gs.player.name, gs.player.hp, gs.player.maxHp, gs.currentLocation,
            InventoryText(gs.player.inventory), HistoryText(gs.storyHistory), input)
  }

  /** The inventory reads "Empty" exactly when it is empty, or when it
      holds a single item that is itself called "Empty". */
  lemma {:induction false} InventoryTextEmptyExactly(inventory: seq<string>)
    ensures InventoryText(inventory) == "Empty" <==> inventory == [] || inventory == ["Empty"]
  {
    if |inventory| >= 2 {
      var t := Join(", ", inventory);
      assert t == inventory[0] + ", " + Join(", ", inventory[1..]);
      assert t[|inventory[0]|] == ',';
      assert forall k :: 0 <= k < |"Empty"| ==> "Empty"[k] != ',';
    }
  }

  // ---------------------------------------------------------------------
  // Fallback narrator
  // ---------------------------------------------------------------------

  /** The kind of action the fallback narrator recognises. */
  datatype Intent = Attack | Heal | Explore | Travel | Other

  const AttackWords: seq<string> := ["attack", "fight", "hit", "strike"]
  const HealWords: seq<string> := ["heal", "potion", "drink", "use potion"]
  const ExploreWords: seq<string> := ["explore", "look", "search", "examine"]
  const TravelWords: seq<string> := ["north", "south", "east", "west", "go", "move", "travel"]

  /** The keyword groups in the order they are tried. */
  const KeywordTable: seq<(seq<string>, Intent)> :=
    [(AttackWords, Attack), (HealWords, Heal), (ExploreWords, Explore), (TravelWords, Travel)]

  /** Some word of `words` occurs in `action` as a substring. */
  predicate MentionsAny(action: string, words: seq<string>) {
    exists i :: 0 <= i < |words| && Contains(action, words[i])
  }

  /** The first row of `table` one of whose words occurs in `action`. */
  function Dispatch(table: seq<(seq<string>, Intent)>, action: string): Intent {
    if |table| == 0 then Other
    else if MentionsAny(action, table[0].0) then table[0].1
    else Dispatch(table[1..], action)
  }

  /** `user_input.lower().strip()`. */
  function NormalizeAction(input: string): string {
    Strip(Lower(input))
  }

  /** The fallback narrator's reading of an input: attack words win over
      heal words, those over explore words, those over travel words. */
  function Classify(input: string): (i: Intent)
    ensures var a := NormalizeAction(input);
            && (i == Attack <==> MentionsAny(a, AttackWords))
            && (i == Heal <==> !MentionsAny(a, AttackWords) && MentionsAny(a, HealWords))
            && (i == Explore <==> !MentionsAny(a, AttackWords) && !MentionsAny(a, HealWords) && MentionsAny(a, ExploreWords))
            && (i == Travel <==>
                  !MentionsAny(a, AttackWords) && !MentionsAny(a, HealWords) &&
                  !MentionsAny(a, ExploreWords) && MentionsAny(a, TravelWords))
            && (i == Other <==>
                  !MentionsAny(a, AttackWords) && !MentionsAny(a, HealWords) &&
                  !MentionsAny(a, ExploreWords) && !MentionsAny(a, TravelWords))
  {
    var a := NormalizeAction(input);
    var rest1 := [(HealWords, Heal), (ExploreWords, Explore), (TravelWords, Travel)];
    var rest2 := [(ExploreWords, Explore), (TravelWords, Travel)];
    var rest3 := [(TravelWords, Travel)];
    assert KeywordTable[1..] == rest1 && rest1[1..] == rest2 && rest2[1..] == rest3 && rest3[1..] == [];
    assert Dispatch(rest3, a) == if MentionsAny(a, TravelWords) then Travel else Other;
    assert Dispatch(rest2, a) == if MentionsAny(a, ExploreWords) then Explore else Dispatch(rest3, a);
    assert Dispatch(rest1, a) == if MentionsAny(a, HealWords) then Heal else Dispatch(rest2, a);
    Dispatch(KeywordTable, a)
  }

  /** The five destinations of a travel command. */
  const Locations: seq<string> := ["Forest Path", "Mountain Trail", "Village Square", "Ancient Ruins", "Mystic Cave"]

  /** The destinations other than the current location, in list order. */
  function TravelChoices(current: string): (r: seq<string>)
    ensures |r| >= 4
    ensures forall k :: 0 <= k < |r| ==> r[k] in Locations && r[k] != current
    ensures forall l :: l in Locations && l != current ==> l in r
  {
    LocationsAreDistinct(current);
    Without(Locations, current)
  }

  /** No location is listed twice. */
  lemma LocationsAreDistinct(l: string)
    ensures multiset(Locations)[l] <= 1
  {
    var lengths := [11, 14, 14, 13, 11];
    assert forall k :: 0 <= k < 5 ==> |Locations[k]| == lengths[k];
    assert Locations[0][0] != Locations[4][0] && Locations[1][1] != Locations[2][1];
  }

  function Without(xs: seq<string>, x: string): (r: seq<string>)
    ensures forall k :: 0 <= k < |r| ==> r[k] in xs && r[k] != x
    ensures forall y :: y in xs && y != x ==> y in r
    ensures |r| == |xs| - multiset(xs)[x]
  {
    if |xs| == 0 then []
    else
      assert xs == [xs[0]] + xs[1..];
      if xs[0] == x then Without(xs[1..], x) else [xs[0]] + Without(xs[1..], x)
  }

  /** `random.choice` over the travel choices, with the random draw given
      as `pick`: any index, taken modulo the number of choices. */
  function Destination(current: string, pick: nat): (d: string)
    ensures d in Locations && d != current
    ensures pick < |TravelChoices(current)| ==> d == TravelChoices(current)[pick]
  {
    var choices := TravelChoices(current);
    ModOfSmaller(pick, |choices|);
    choices[pick % |choices|]
  }

  const Potion := "Health Potion"

  /** A complete reply that keeps the player where they are. */
  function Stay(gs: GameState, narrative: string, hpChange: int, removed: seq<string>): Reply {
    Reply(Some(narrative), Some(gs.currentLocation), Some(hpChange), Some([]), Some(removed))
  }

  /** What the fallback narrator promises for each kind of input: a
      complete reply that adds no items; an attack costs 5 hit points; a
      heal restores 20 and uses up a carried Health Potion, or does nothing
      without one; travel moves to the picked destination; anything else
      changes nothing. */
  predicate Answers(gs: GameState, intent: Intent, pick: nat, r: Reply)
  {
    && Complete(r)
    && r.itemsAdded == Some([])
    && match intent
       case Attack =>
         r.hpChange == Some(-5) && r.location == Some(gs.currentLocation) && r.itemsRemoved == Some([])
       case Heal =>
         && r.location == Some(gs.currentLocation)
         && (Potion in gs.player.inventory ==> r.hpChange == Some(20) && r.itemsRemoved == Some([Potion]))
         && (Potion !in gs.player.inventory ==> r.hpChange == Some(0) && r.itemsRemoved == Some([]))
       case Travel =>
         r.location == Some(Destination(gs.currentLocation, pick)) && r.hpChange == Some(0) && r.itemsRemoved == Some([])
       case _ =>
         r.hpChange == Some(0) && r.location == Some(gs.currentLocation) && r.itemsRemoved == Some([])
  }

  // The fixed parts of the fallback narrator's sentences.
  const AttackText := " swings their weapon! You deal damage to your opponent."
  const PotionText := " drinks a health potion and feels much better!"
  const NoPotionText := "You search your belongings but find no healing items."
  const ExploreText := " carefully. The area seems peaceful for now, but you sense adventure awaits."
  const TravelText := ". The journey was uneventful but you feel ready for whatever comes next."
  const OtherText := ". The world around you responds in mysterious ways, and your adventure continues."

  /** The branches of `_get_fallback_response` once the input is
      classified; `action` is the normalised input echoed back. */
  function Respond(gs: GameState, intent: Intent, action: string, pick: nat): (r: Reply)
    ensures Answers(gs, intent, pick, r)
    ensures intent == Travel ==> r.location.value in Locations && r.location.value != gs.currentLocation
  {
    match intent
    case Attack =>
      Stay(gs, gs.player.name + AttackText, -5, [])
    case Heal =>
      if Potion in gs.player.inventory then
        Stay(gs, gs.player.name + PotionText, 20, [Potion])
      else
        Stay(gs, NoPotionText, 0, [])
    case Explore =>
      Stay(gs, "You explore the " + gs.currentLocation
               + ExploreText, 0, [])
    case Travel =>
      var destination := Destination(gs.currentLocation, pick);
      Reply(Some("You travel onward and arrive at the " + destination
                 + TravelText),
            Some(destination), Some(0), Some([]), Some([]))
    case Other =>
      Stay(gs, "You attempt to " + action
               + OtherText, 0, [])
  }

  /** `_get_fallback_response`: classify the input, then answer it. `pick`
      is the random draw, used only by a travel command. */
  function FallbackResponse(gs: GameState, input: string, pick: nat): (r: Reply)
    ensures Answers(gs, Classify(input), pick, r)
    ensures Classify(input) == Travel ==> r.location.value in Locations && r.location.value != gs.currentLocation
  {
    Respond(gs, Classify(input), NormalizeAction(input), pick)
  }

  /** Every destination other than the current one can be reached: the
      random choice ranges over all of them. */
  lemma EveryOtherLocationReachable(gs: GameState, input: string, destination: string)
    requires Classify(input) == Travel
    requires destination in Locations && destination != gs.currentLocation
    ensures exists pick: nat :: pick < |TravelChoices(gs.currentLocation)| &&
              FallbackResponse(gs, input, pick).location == Some(destination)
  {
    var pick := DestinationCovers(gs.currentLocation, destination);
    assert Answers(gs, Travel, pick, FallbackResponse(gs, input, pick));
  }

  /** Every location other than the current one is the destination of some
      draw below the number of choices. */
  lemma DestinationCovers(current: string, destination: string) returns (pick: nat)
    requires destination in Locations && destination != current
    ensures pick < |TravelChoices(current)| && Destination(current, pick) == destination
  {
    pick := PositionOf(TravelChoices(current), destination);
  }

  lemma PositionOf(xs: seq<string>, x: string) returns (k: nat)
    requires x in xs
    ensures k < |xs| && xs[k] == x
  {
    k :| 0 <= k < |xs| && xs[k] == x;
  }

  lemma ModOfSmaller(x: nat, n: nat)
    requires n > 0
    ensures x < n ==> x % n == x
  {
  }

  // ---------------------------------------------------------------------
  // One request
  // ---------------------------------------------------------------------

  /** What asking the backend can give: a parsed reply, a reply that is not
      JSON, or a failed call. */
  datatype BackendOutcome = Replied(reply: Reply) | NotJson | CallFailed

  /** `get_ai_response`: in fallback mode the fallback narrator answers; in
      connected mode the backend is asked, a parsed reply is filled with
      defaults, and any failure switches to fallback for good and answers
      this same request from the fallback narrator. */
  function GetAiResponse(mode: Mode, gs: GameState, input: string, backend: Context -> BackendOutcome, pick: nat): (r: (Mode, Reply))
    ensures AllowedTransition(mode, r.0)
    ensures Complete(r.1)
    ensures mode == Fallback ==> r.1 == FallbackResponse(gs, input, pick)
    ensures r.0 == Connected <==> mode == Connected && backend(BuildContext(gs, input)).Replied?
    ensures r.0 == Fallback ==> r.1 == FallbackResponse(gs, input, pick)
    ensures r.0 == Connected ==> r.1 == FillDefaults(backend(BuildContext(gs, input)).reply)
  {
    if mode == Fallback then (Fallback, FallbackResponse(gs, input, pick))
    else
      match backend(BuildContext(gs, input))
      case Replied(reply) => (Connected, FillDefaults(reply))
      case NotJson => (Fallback, FallbackResponse(gs, input, pick))
      case CallFailed => (Fallback, FallbackResponse(gs, input, pick))
  }

  /** Once in fallback mode, what the backend would have said makes no
      difference. */
  lemma FallbackIgnoresBackend(gs: GameState, input: string, b1: Context -> BackendOutcome, b2: Context -> BackendOutcome, pick: nat)
    ensures GetAiResponse(Fallback, gs, input, b1, pick) == GetAiResponse(Fallback, gs, input, b2, pick)
  {
  }
}

=== FILE: outcomes.dfy ===
/** Definitions shared across the model: the failure-carrying wrappers
    `Option`, for the Python code's `None` returns, and `Result`, for the
    places where the source raises an exception that its caller is
    expected to handle; and Python's two-argument `min` and `max`. */
module Outcomes {

  datatype Option<+T> = None | Some(value: T) {

    /** The wrapped value, or `default` when there is none. */
    function GetOr(default: T): T {
      match this
      case Some(v) => v
      case None => default
    }
  }

  datatype Result<+T, +E> = Ok(value: T) | Err(error: E) {

    predicate IsFailure() {
      Err?
    }

    function PropagateFailure<U>(): Result<U, E>
      requires Err?
    {
      Err(error)
    }

    function Extract(): T
      requires Ok?
    {
      value
    }
  }

  /** Python's `min(a, b)` on integers. */
  function Min(a: int, b: int): int { if a <= b then a else b }

  /** Python's `max(a, b)` on integers. */
  function Max(a: int, b: int): int { if a >= b then a else b }
}

=== FILE: text.dfy ===
/** The handful of Python string built-ins the game logic relies on,
    restricted to ASCII text: `str.lower`, `str.strip`, `str.startswith`,
    the `in` substring test, `str.join`, `str(int)` and `int(str)` on
    decimal digits, and `c * n` repetition. */
module Text {

  // ---------------------------------------------------------------------
  // Characters
  // ---------------------------------------------------------------------

  predicate IsDigit(c: char) {
    '0' <= c <= '9'
  }

  function DigitValue(c: char): (d: nat)
    requires IsDigit(c)
    ensures d < 10
  {
    c as int - '0' as int
  }

  function DigitChar(d: nat): (c: char)
    requires d < 10
    ensures IsDigit(c) && DigitValue(c) == d
  {
    ('0' as int + d) as char
  }

  /** ASCII white space as Python's `str.isspace` sees it: space, the five
      control characters \t \n \v \f \r, and the separators \x1c-\x1f. */
  predicate IsSpace(c: char) {
    c == ' ' || 9 <= c as int <= 13 || 28 <= c as int <= 31
  }

  predicate IsUpper(c: char) {
    'A' <= c <= 'Z'
  }

  function LowerChar(c: char): (r: char)
    ensures !IsUpper(r)
    ensures !IsUpper(c) ==> r == c
  {
    if IsUpper(c) then (c as int - 'A' as int + 'a' as int) as char else c
  }

  /** `s.lower()` on ASCII text. */
  function Lower(s: string): (r: string)
    ensures |r| == |s|
    ensures forall i :: 0 <= i < |s| ==> r[i] == LowerChar(s[i])
  {
    seq(|s|, i requires 0 <= i < |s| => LowerChar(s[i]))
  }

  predicate NoUpper(s: string) {
    forall i :: 0 <= i < |s| ==> !IsUpper(s[i])
  }

  lemma LowerOfLowerCase(s: string)
    requires NoUpper(s)
    ensures Lower(s) == s
  {
  }

  // ---------------------------------------------------------------------
  // Stripping
  // ---------------------------------------------------------------------

  /** `s.lstrip()`: drops the leading white space, and only that. */
  function TrimStart(s: string): (r: string)
    ensures |r| <= |s| && r == s[|s| - |r|..]
    ensures forall i :: 0 <= i < |s| - |r| ==> IsSpace(s[i])
    ensures r == [] || !IsSpace(r[0])
  {
    if |s| > 0 && IsSpace(s[0]) then TrimStart(s[1..]) else s
  }

  /** `s.rstrip()`: drops the trailing white space, and only that. */
  function TrimEnd(s: string): (r: string)
    ensures |r| <= |s| && r == s[..|r|]
    ensures forall i :: |r| <= i < |s| ==> IsSpace(s[i])
    ensures r == [] || !IsSpace(r[|r| - 1])
  {
    if |s| > 0 && IsSpace(s[|s| - 1]) then TrimEnd(s[..|s| - 1]) else s
  }

  /** `s.strip()`. */
  function Strip(s: string): string {
    TrimEnd(TrimStart(s))
  }

  /** `s.replace(" ", "")`: removes every space character, keeping the
      order of all others. */
  function RemoveSpaces(s: string): (r: string)
    ensures |r| <= |s|
    ensures forall i :: 0 <= i < |r| ==> r[i] != ' '
    ensures (forall i :: 0 <= i < |s| ==> s[i] != ' ') ==> r == s
    ensures |s| == 1 ==> r == if s[0] == ' ' then [] else s
  {
    if |s| == 0 then []
    else if s[0] == ' ' then RemoveSpaces(s[1..])
    else [s[0]] + RemoveSpaces(s[1..])
  }

  /** Spaces are removed piece by piece: with the one-character case of
      `RemoveSpaces`, this pins the result to the text's non-space
      characters in their order. */
  lemma {:induction false} RemoveSpacesOfConcat(a: string, b: string)
    ensures RemoveSpaces(a + b) == RemoveSpaces(a) + RemoveSpaces(b)
    decreases |a|
  {
    if |a| > 0 {
      assert (a + b)[1..] == a[1..] + b;
      RemoveSpacesOfConcat(a[1..], b);
    } else {
      assert a + b == b;
    }
  }

  // ---------------------------------------------------------------------
  // Prefixes, substrings, joining, repetition
  // ---------------------------------------------------------------------

  /** A space between two pieces of text disappears. */
  lemma SpaceBetweenIsRemoved(a: string, b: string)
    ensures RemoveSpaces(a + " " + b) == RemoveSpaces(a + b)
  {
    RemoveSpacesOfConcat(a + " ", b);
    RemoveSpacesOfConcat(a, " ");
    RemoveSpacesOfConcat(a, b);
    assert RemoveSpaces(" ") == [];
  }

  /** `s.startswith(p)`. */
  predicate StartsWith(s: string, p: string) {
    |p| <= |s| && s[..|p|] == p
  }

  /** `w in s` on strings: `w` occurs somewhere in `s` as a contiguous
      block (the empty string occurs in every string). */
  predicate Contains(s: string, w: string)
    decreases |s|
  {
    StartsWith(s, w) || (|s| > 0 && Contains(s[1..], w))
  }

  /** The recursive substring test agrees with "there is a position where
      `w` occurs". */
  lemma {:induction false} ContainsAt(s: string, w: string, k: nat)
    requires k + |w| <= |s| && s[k..k + |w|] == w
    ensures Contains(s, w)
    decreases k
  {
    if k == 0 {
      assert s[..|w|] == w;
    } else {
      assert s[1..][k - 1..k - 1 + |w|] == s[k..k + |w|];
      ContainsAt(s[1..], w, k - 1);
    }
  }

  /** `sep.join(xs)`. */
  function Join(sep: string, xs: seq<string>): (r: string)
    ensures |xs| == 0 ==> r == ""
    ensures |xs| == 1 ==> r == xs[0]
    ensures |xs| > 0 ==> StartsWith(r, xs[0])
  {
    if |xs| == 0 then ""
    else if |xs| == 1 then xs[0]
    else xs[0] + sep + Join(sep, xs[1..])
  }

  /** Where item `i` starts once the items are joined by `sep`: the items
      before it, each followed by `sep`. */
  function Offset(sep: string, xs: seq<string>, i: nat): nat
    requires i <= |xs|
  {
    if i == 0 then 0 else Offset(sep, xs, i - 1) + |xs[i - 1]| + |sep|
  }

  /** Item `i` sits in `r` at its offset. */
  predicate ItemAt(r: string, sep: string, xs: seq<string>, i: nat)
    requires i < |xs|
  {
    Offset(sep, xs, i) + |xs[i]| <= |r| && r[Offset(sep, xs, i)..Offset(sep, xs, i) + |xs[i]|] == xs[i]
  }

  /** `sep` sits in `r` between item `i` and item `i + 1`. */
  predicate SeparatorAfter(r: string, sep: string, xs: seq<string>, i: nat)
    requires i + 1 < |xs|
  {
    Offset(sep, xs, i + 1) <= |r| && r[Offset(sep, xs, i) + |xs[i]|..Offset(sep, xs, i + 1)] == sep
  }

  /** `r` is the items of `xs` in order with `sep` between each two
      consecutive ones, and nothing else: the text Python's join makes. */
  predicate Joins(r: string, sep: string, xs: seq<string>) {
    if |xs| == 0 then r == ""
    else
      && |r| + |sep| == Offset(sep, xs, |xs|)
      && (forall i :: 0 <= i < |xs| ==> ItemAt(r, sep, xs, i))
      && (forall i :: 0 <= i < |xs| - 1 ==> SeparatorAfter(r, sep, xs, i))
  }

  /** Behind the first item, every offset is the one in the other items
      moved by the first item and its separator. */
  lemma {:induction false} OffsetBehindFirst(sep: string, xs: seq<string>, i: nat)
    requires i < |xs|
    ensures Offset(sep, xs, i + 1) == |xs[0]| + |sep| + Offset(sep, xs[1..], i)
  {
    if i > 0 {
      OffsetBehindFirst(sep, xs, i - 1);
      assert xs[1..][i - 1] == xs[i];
    }
  }

  /** `Join` lays the items out as `Joins` describes. */
  lemma {:induction false} JoinLaysOutItems(sep: string, xs: seq<string>)
    ensures Joins(Join(sep, xs), sep, xs)
    decreases |xs|
  {
    if |xs| == 1 {
      assert ItemAt(Join(sep, xs), sep, xs, 0);
    } else if |xs| > 1 {
      JoinLaysOutItems(sep, xs[1..]);
      assert Join(sep, xs) == (xs[0] + sep) + Join(sep, xs[1..]);
      LayoutBehindFirst(Join(sep, xs), xs[0] + sep, Join(sep, xs[1..]), sep, xs);
    }
  }

  /** The first item and its separator in front of the others' layout
      give the layout of all the items. */
  lemma LayoutBehindFirst(r: string, front: string, t: string, sep: string, xs: seq<string>)
    requires |xs| > 1 && front == xs[0] + sep && r == front + t
    requires Joins(t, sep, xs[1..])
    ensures Joins(r, sep, xs)
  {
    OffsetBehindFirst(sep, xs, |xs| - 1);
    forall i | 0 <= i < |xs| ensures ItemAt(r, sep, xs, i) {
      if i > 0 {
        assert ItemAt(t, sep, xs[1..], i - 1);
        ItemBehindFirst(r, front, t, sep, xs, i);
      }
    }
    forall i | 0 <= i < |xs| - 1 ensures SeparatorAfter(r, sep, xs, i) {
      OffsetBehindFirst(sep, xs, 0);
      if i > 0 {
        assert SeparatorAfter(t, sep, xs[1..], i - 1);
        SeparatorBehindFirst(r, front, t, sep, xs, i);
      }
    }
  }

  /** Text behind a prefix, sliced at shifted positions. */
  lemma SliceBehind(r: string, front: string, t: string, p: nat, q: nat)
    requires r == front + t && p <= q <= |t|
    ensures r[|front| + p..|front| + q] == t[p..q]
  {
  }

  /** An item of the other items, seen behind the first item and its
      separator. */
  lemma ItemBehindFirst(r: string, front: string, t: string, sep: string, xs: seq<string>, i: nat)
    requires 0 < i < |xs| && front == xs[0] + sep && r == front + t
    requires ItemAt(t, sep, xs[1..], i - 1)
    ensures ItemAt(r, sep, xs, i)
  {
    var p := Offset(sep, xs[1..], i - 1);
    OffsetBehindFirst(sep, xs, i - 1);
    assert xs[1..][i - 1] == xs[i];
    assert t[p..p + |xs[i]|] == xs[i];
    SliceBehind(r, front, t, p, p + |xs[i]|);
  }

  /** A separator of the other items, seen behind the first item and its
      separator. */
  lemma SeparatorBehindFirst(r: string, front: string, t: string, sep: string, xs: seq<string>, i: nat)
    requires 0 < i && i + 1 < |xs| && front == xs[0] + sep && r == front + t
    requires SeparatorAfter(t, sep, xs[1..], i - 1)
    ensures SeparatorAfter(r, sep, xs, i)
  {
    var p := Offset(sep, xs[1..], i - 1);
    var q := Offset(sep, xs[1..], i);
    OffsetBehindFirst(sep, xs, i - 1);
    OffsetBehindFirst(sep, xs, i);
    assert xs[1..][i - 1] == xs[i];
    assert t[p + |xs[i]|..q] == sep;
    SliceBehind(r, front, t, p + |xs[i]|, q);
  }

  /** The layout pins the text down: whatever is laid out as `Joins`
      describes is the joined text. */
  lemma {:induction false} JoinsOnlyJoin(r: string, sep: string, xs: seq<string>)
    requires Joins(r, sep, xs)
    ensures r == Join(sep, xs)
    decreases |xs|
  {
    if |xs| == 1 {
      assert ItemAt(r, sep, xs, 0);
    } else if |xs| > 1 {
      var h := |xs[0]| + |sep|;
      LayoutOfRest(r, sep, xs);
      JoinsOnlyJoin(r[h..], sep, xs[1..]);
    }
  }

  /** A laid-out text is its first item, the separator, and the layout of
      the other items. */
  lemma LayoutOfRest(r: string, sep: string, xs: seq<string>)
    requires |xs| > 1 && Joins(r, sep, xs)
    ensures |xs[0]| + |sep| <= |r|
    ensures r == xs[0] + sep + r[|xs[0]| + |sep|..]
    ensures Joins(r[|xs[0]| + |sep|..], sep, xs[1..])
  {
    assert ItemAt(r, sep, xs, 0) && SeparatorAfter(r, sep, xs, 0);
    OffsetBehindFirst(sep, xs, |xs| - 1);
    ItemsInRest(r, r[|xs[0]| + |sep|..], sep, xs, xs[1..]);
    SeparatorsInRest(r, r[|xs[0]| + |sep|..], sep, xs, xs[1..]);
    SplitFront(r, xs[0], sep);
  }

  /** Every item but the first, laid out in what follows the first item
      and its separator. */
  lemma ItemsInRest(r: string, rest: string, sep: string, xs: seq<string>, ys: seq<string>)
    requires |xs| > 1 && |xs[0]| + |sep| <= |r| && rest == r[|xs[0]| + |sep|..] && ys == xs[1..]
    requires forall i :: 0 <= i < |xs| ==> ItemAt(r, sep, xs, i)
    ensures forall j :: 0 <= j < |ys| ==> ItemAt(rest, sep, ys, j)
  {
    forall j | 0 <= j < |ys| ensures ItemAt(rest, sep, ys, j) {
      assert ItemAt(r, sep, xs, j + 1);
      ItemInRest(r, sep, xs, j);
    }
  }

  /** Every separator but the first, laid out in what follows the first
      item and its separator. */
  lemma SeparatorsInRest(r: string, rest: string, sep: string, xs: seq<string>, ys: seq<string>)
    requires |xs| > 1 && |xs[0]| + |sep| <= |r| && rest == r[|xs[0]| + |sep|..] && ys == xs[1..]
    requires forall i :: 0 <= i < |xs| - 1 ==> SeparatorAfter(r, sep, xs, i)
    ensures forall j :: 0 <= j < |ys| - 1 ==> SeparatorAfter(rest, sep, ys, j)
  {
    forall j | 0 <= j < |ys| - 1 ensures SeparatorAfter(rest, sep, ys, j) {
      assert SeparatorAfter(r, sep, xs, j + 1);
      SeparatorInRest(r, sep, xs, j);
    }
  }

  /** A text starting with `a` and then `b` is `a + b` and the rest. */
  lemma SplitFront(r: string, a: string, b: string)
    requires |a| + |b| <= |r| && r[..|a|] == a && r[|a|..|a| + |b|] == b
    ensures r == a + b + r[|a| + |b|..]
  {
    assert r == r[..|a|] + r[|a|..|a| + |b|] + r[|a| + |b|..];
  }

  /** Item `j + 1` of a laid-out text is item `j` of what follows the
      first item and its separator. */
  lemma ItemInRest(r: string, sep: string, xs: seq<string>, j: nat)
    requires j + 1 < |xs| && |xs[0]| + |sep| <= |r|
    requires ItemAt(r, sep, xs, j + 1)
    ensures ItemAt(r[|xs[0]| + |sep|..], sep, xs[1..], j)
  {
    var h := |xs[0]| + |sep|;
    var p := Offset(sep, xs[1..], j);
    OffsetBehindFirst(sep, xs, j);
    assert xs[1..][j] == xs[j + 1];
    assert r[h..][p..p + |xs[j + 1]|] == r[h + p..h + p + |xs[j + 1]|];
  }

  /** Separator `j + 1` of a laid-out text is separator `j` of what
      follows the first item and its separator. */
  lemma SeparatorInRest(r: string, sep: string, xs: seq<string>, j: nat)
    requires j + 2 < |xs| && |xs[0]| + |sep| <= |r|
    requires SeparatorAfter(r, sep, xs, j + 1)
    ensures SeparatorAfter(r[|xs[0]| + |sep|..], sep, xs[1..], j)
  {
    var h := |xs[0]| + |sep|;
    var p := Offset(sep, xs[1..], j);
    var q := Offset(sep, xs[1..], j + 1);
    OffsetBehindFirst(sep, xs, j);
    OffsetBehindFirst(sep, xs, j + 1);
    assert xs[1..][j] == xs[j + 1];
    assert r[h..][p + |xs[j + 1]|..q] == r[h + p + |xs[j + 1]|..h + q];
  }

  /** `c * n` for a one-character string `c`; Python gives the empty
      string for every `n <= 0`. */
  function Repeat(c: char, n: int): (r: string)
    ensures |r| == if n <= 0 then 0 else n
    ensures forall i :: 0 <= i < |r| ==> r[i] == c
  {
    if n <= 0 then "" else [c] + Repeat(c, n - 1)
  }

  // ---------------------------------------------------------------------
  // Decimal numerals
  // ---------------------------------------------------------------------

  predicate AllDigits(s: string) {
    forall i :: 0 <= i < |s| ==> IsDigit(s[i])
  }

  /** `int(s)` for a string of decimal digits (leading zeros allowed). */
  function DigitsValue(s: string): nat
    requires AllDigits(s)
  {
    if |s| == 0 then 0 else 10 * DigitsValue(s[..|s| - 1]) + DigitValue(s[|s| - 1])
  }

  /** `str(n)` for a natural number: its shortest decimal numeral. */
  function NatToString(n: nat): (r: string)
    ensures |r| > 0 && AllDigits(r)
    ensures |r| > 1 ==> r[0] != '0'
  {
    if n < 10 then [DigitChar(n)] else NatToString(n / 10) + [DigitChar(n % 10)]
  }

  /** `str(i)` for any integer: a minus sign in front of negative values. */
  function IntToString(i: int): (r: string)
    ensures |r| > 0
    ensures i >= 0 <==> r[0] != '-'
  {
    if i >= 0 then NatToString(i) else "-" + NatToString(-i)
  }

  /** Reading back a printed natural number gives the number. */
  lemma {:induction false} NatToStringRoundTrip(n: nat)
    ensures DigitsValue(NatToString(n)) == n
  {
    if n >= 10 {
      var s := NatToString(n);
      assert s[..|s| - 1] == NatToString(n / 10);
      NatToStringRoundTrip(n / 10);
    }
  }

  /** Different naturals print differently. */
  lemma NatToStringInjective(m: nat, n: nat)
    requires NatToString(m) == NatToString(n)
    ensures m == n
  {
    NatToStringRoundTrip(m);
    NatToStringRoundTrip(n);
  }

  /** The length of the longest run of digits at the start of `s`. */
  function LeadingDigits(s: string): (k: nat)
    ensures k <= |s| && AllDigits(s[..k])
    ensures k == |s| || !IsDigit(s[k])
  {
    if |s| > 0 && IsDigit(s[0]) then
      var k := 1 + LeadingDigits(s[1..]);
      assert s[..k] == [s[0]] + s[1..][..k - 1];
      k
    else 0
  }

  /** A digit string followed by a non-digit (or by nothing) is exactly the
      leading run of digits. */
  lemma {:induction false} LeadingDigitsOfConcat(a: string, rest: string)
    requires AllDigits(a)
    requires rest == [] || !IsDigit(rest[0])
    ensures LeadingDigits(a + rest) == |a|
    ensures (a + rest)[..|a|] == a && (a + rest)[|a|..] == rest
  {
    if |a| > 0 {
      assert (a + rest)[1..] == a[1..] + rest;
      LeadingDigitsOfConcat(a[1..], rest);
    }
  }

  // ---------------------------------------------------------------------
  // Lines
  // ---------------------------------------------------------------------

  /** The position of the first newline, or `|s|` when there is none. */
  function NewlineIndex(s: string): (i: nat)
    ensures i <= |s|
    ensures i < |s| ==> s[i] == '\n'
    ensures forall j :: 0 <= j < i ==> s[j] != '\n'
  {
    if |s| == 0 || s[0] == '\n' then 0 else 1 + NewlineIndex(s[1..])
  }

  /** `s.split("\n")`: the pieces between newlines. */
  function SplitLines(s: string): (r: seq<string>)
    ensures |r| > 0
    decreases |s|
  {
    var i := NewlineIndex(s);
    if i == |s| then [s] else [s[..i]] + SplitLines(s[i + 1..])
  }

  predicate NoNewline(s: string) {
    forall j :: 0 <= j < |s| ==> s[j] != '\n'
  }

  /** Joining newline-free lines with "\n" and splitting the text again
      gives the lines back. */
  lemma {:induction false} SplitJoinedLines(xs: seq<string>)
    requires |xs| > 0
    requires forall k :: 0 <= k < |xs| ==> NoNewline(xs[k])
    ensures SplitLines(Join("\n", xs)) == xs
  {
    if |xs| == 1 {
      assert NewlineIndex(xs[0]) == |xs[0]|;
    } else {
      SplitLinesOfLine(xs[0], Join("\n", xs[1..]));
      SplitJoinedLines(xs[1..]);
      assert xs == [xs[0]] + xs[1..];
    }
  }

  /** A newline-free line followed by a newline splits off as the first
      piece. */
  lemma SplitLinesOfLine(line: string, rest: string)
    requires NoNewline(line)
    ensures SplitLines(line + "\n" + rest) == [line] + SplitLines(rest)
  {
    var s := line + "\n" + rest;
    assert s == line + ("\n" + rest);
    NewlineIndexOfLine(line, "\n" + rest);
    assert s[..|line|] == line;
    assert s[|line| + 1..] == rest;
  }

  lemma {:induction false} NewlineIndexOfLine(line: string, rest: string)
    requires NoNewline(line) && |rest| > 0 && rest[0] == '\n'
    ensures NewlineIndex(line + rest) == |line|
  {
    if |line| > 0 {
      assert (line + rest)[1..] == line[1..] + rest;
      NewlineIndexOfLine(line[1..], rest);
    }
  }
}

=== FILE: turn.dfy ===
/** The turn logic of `src/main.py`: reconciling a narrator reply with the
    game state, reading the player's command, recovering the latest
    narrative, the game-over test, starting a new game and the turn loop.

    The screen, the save file and the settings store are not modelled: the
    configured turn limit is a parameter, and so is each turn's backend and
    random draw for the destination. */
module Turn {
  import opened Outcomes
  import opened Text
  import opened Game
  import opened Narrator

  // ---------------------------------------------------------------------
  // Hit points
  // ---------------------------------------------------------------------

  /** A non-zero change is added and the sum clamped with
      `max(0, min(hp, max_hp))`; a zero change leaves the points alone. */
  function ApplyHpChange(hp: int, maxHp: int, change: int): (r: int)
    ensures change == 0 ==> r == hp
    ensures change != 0 ==> r >= 0
    ensures change != 0 && maxHp >= 0 ==> r <= maxHp
    ensures change != 0 && 0 <= hp + change <= maxHp ==> r == hp + change
    ensures change != 0 && hp + change < 0 ==> r == 0
    ensures change != 0 && hp + change > maxHp ==> r == Max(0, maxHp)
  {
    if change != 0 then Max(0, Min(hp + change, maxHp)) else hp
  }

  // ---------------------------------------------------------------------
  // Inventory
  // ---------------------------------------------------------------------

  predicate NoDuplicates(xs: seq<string>) {
    forall i, j :: 0 <= i < j < |xs| ==> xs[i] != xs[j]
  }

  /** `appended` is what the adding loop puts after `inventory`: every
      non-empty listed item not carried before, once each, ordered by where
      `items` first lists it. */
  ghost predicate AppendsInOrder(inventory: seq<string>, items: seq<string>, appended: seq<string>) {
    NoDuplicates(appended)
    && (forall x :: x in appended <==> x in items && x != "" && x !in inventory)
    && (forall a, b :: 0 <= a < b < |appended| ==>
          FirstIndex(items, appended[a]) < FirstIndex(items, appended[b]))
  }

  /** The adding loop: each non-empty item not yet carried is appended, in
      the order the reply lists them. */
  function AddItems(inventory: seq<string>, items: seq<string>): (r: seq<string>)
    ensures |inventory| <= |r| && r[..|inventory|] == inventory
    ensures AppendsInOrder(inventory, items, r[|inventory|..])
    ensures forall x :: x in r <==> x in inventory || (x in items && x != "")
    ensures NoDuplicates(inventory) ==> NoDuplicates(r)
    decreases |items|
  {
    if |items| == 0 then inventory
    else
      assert items == [items[0]] + items[1..];
      var r := AddItems(Grown(inventory, items[0]), items[1..]);
      AddStep(inventory, items[0], items[1..], r);
      r
  }

  /** The inventory after one turn of the adding loop. */
  function Grown(inventory: seq<string>, item: string): seq<string> {
    if item != "" && item !in inventory then inventory + [item] else inventory
  }

  /** One turn of the adding loop followed by the rest of the loop does
      what the whole loop promises. */
  lemma AddStep(inventory: seq<string>, item: string, rest: seq<string>, r: seq<string>)
    requires var next := Grown(inventory, item);
             && |next| <= |r| && r[..|next|] == next
             && AppendsInOrder(next, rest, r[|next|..])
             && (forall x :: x in r <==> x in next || (x in rest && x != ""))
             && (NoDuplicates(next) ==> NoDuplicates(r))
    ensures |inventory| <= |r| && r[..|inventory|] == inventory
    ensures AppendsInOrder(inventory, [item] + rest, r[|inventory|..])
    ensures forall x :: x in r <==> x in inventory || (x in [item] + rest && x != "")
    ensures NoDuplicates(inventory) ==> NoDuplicates(r)
  {
    var next := Grown(inventory, item);
    assert r[..|inventory|] == next[..|inventory|];
    assert r[|inventory|..] == next[|inventory|..] + r[|next|..];
    if item != "" && item !in inventory {
      assert next[|inventory|..] == [item];
      AppendsNew(inventory, item, rest, r[|next|..]);
      assert NoDuplicates(inventory) ==> NoDuplicates(next) by {
        if NoDuplicates(inventory) {
          DistinctAppend(inventory, item);
        }
      }
    } else {
      assert next[|inventory|..] == [];
      AppendsSkipped(inventory, item, rest, r[|next|..]);
    }
  }

  /** Appending an item not yet listed keeps a list duplicate-free. */
  lemma DistinctAppend(xs: seq<string>, x: string)
    requires NoDuplicates(xs) && x !in xs
    ensures NoDuplicates(xs + [x])
  {
    var ys := xs + [x];
    forall i, j | 0 <= i < j < |ys| ensures ys[i] != ys[j] {
      assert ys[i] == xs[i];
    }
  }

  /** Behind a different first item, an item's first position moves up by
      one. */
  lemma FirstIndexBehind(item: string, rest: seq<string>, x: string)
    requires x in rest && x != item
    ensures FirstIndex([item] + rest, x) == 1 + FirstIndex(rest, x)
  {
    assert ([item] + rest)[1..] == rest;
  }

  /** One turn of the adding loop that appends nothing: an empty or already
      carried first item changes nothing the rest appends. */
  lemma AppendsSkipped(inventory: seq<string>, item: string, rest: seq<string>, later: seq<string>)
    requires item == "" || item in inventory
    requires AppendsInOrder(inventory, rest, later)
    ensures AppendsInOrder(inventory, [item] + rest, later)
  {
    assert item !in later;
    forall a, b | 0 <= a < b < |later|
      ensures FirstIndex([item] + rest, later[a]) < FirstIndex([item] + rest, later[b])
    {
      FirstIndexBehind(item, rest, later[a]);
      FirstIndexBehind(item, rest, later[b]);
    }
  }

  /** One turn of the adding loop that appends its new first item: that
      item comes before everything the rest of the list appends. */
  lemma AppendsNew(inventory: seq<string>, item: string, rest: seq<string>, later: seq<string>)
    requires item != "" && item !in inventory
    requires AppendsInOrder(inventory + [item], rest, later)
    ensures AppendsInOrder(inventory, [item] + rest, [item] + later)
  {
    assert item !in later;
    FirstSeenFirst(item, rest, later);
    DistinctInFront(item, later);
  }

  /** An item listed first precedes, by first position, every later one. */
  lemma FirstSeenFirst(item: string, rest: seq<string>, later: seq<string>)
    requires item !in later
    requires forall x :: x in later ==> x in rest
    requires forall a, b :: 0 <= a < b < |later| ==> FirstIndex(rest, later[a]) < FirstIndex(rest, later[b])
    ensures forall a, b :: 0 <= a < b < |[item] + later| ==>
              FirstIndex([item] + rest, ([item] + later)[a]) < FirstIndex([item] + rest, ([item] + later)[b])
  {
    var appended := [item] + later;
    forall a, b | 0 <= a < b < |appended|
      ensures FirstIndex([item] + rest, appended[a]) < FirstIndex([item] + rest, appended[b])
    {
      assert appended[b] == later[b - 1];
      FirstIndexBehind(item, rest, appended[b]);
      if a > 0 {
        assert appended[a] == later[a - 1];
        FirstIndexBehind(item, rest, appended[a]);
      }
    }
  }

  lemma DistinctInFront(item: string, later: seq<string>)
    requires item !in later && NoDuplicates(later)
    ensures NoDuplicates([item] + later)
  {
    var appended := [item] + later;
    forall i, j | 0 <= i < j < |appended| ensures appended[i] != appended[j] {
      assert appended[j] == later[j - 1];
      if i > 0 {
        assert appended[i] == later[i - 1];
      }
    }
  }

  /** The position of the first occurrence of `x`. */
  function FirstIndex(xs: seq<string>, x: string): (i: nat)
    requires x in xs
    ensures i < |xs| && xs[i] == x && x !in xs[..i]
  {
    if xs[0] == x then 0
    else
      var i := 1 + FirstIndex(xs[1..], x);
      assert xs[..i] == [xs[0]] + xs[1..][..i - 1];
      i
  }

  /** `list.remove(x)` guarded by `x in list`: the first occurrence goes,
      everything else stays in order. */
  function RemoveFirst(inventory: seq<string>, x: string): (r: seq<string>)
    ensures x !in inventory ==> r == inventory
    ensures x in inventory ==>
              var i := FirstIndex(inventory, x);
              r == inventory[..i] + inventory[i + 1..]
    ensures multiset(r) == multiset(inventory) - multiset{x}
  {
    if x in inventory then
      var i := FirstIndex(inventory, x);
      assert inventory == inventory[..i] + [x] + inventory[i + 1..];
      inventory[..i] + inventory[i + 1..]
    else
      assert multiset(inventory)[x] == 0;
      inventory
  }

  /** `keep` lists, in increasing order, the positions of `xs` that `r`
      holds. */
  predicate KeepsBy(r: seq<string>, xs: seq<string>, keep: seq<nat>) {
    |keep| == |r|
    && (forall i :: 0 <= i < |keep| ==> keep[i] < |xs| && r[i] == xs[keep[i]])
    && (forall i, j :: 0 <= i < j < |keep| ==> keep[i] < keep[j])
  }

  /** `r` is `xs` with some entries dropped and the others in their order. */
  ghost predicate IsSubsequence(r: seq<string>, xs: seq<string>) {
    exists keep :: KeepsBy(r, xs, keep)
  }

  lemma SubsequenceOfItself(xs: seq<string>)
    ensures IsSubsequence(xs, xs)
  {
    var keep: seq<nat> := seq(|xs|, i requires 0 <= i => i);
    assert KeepsBy(xs, xs, keep);
  }

  lemma SubsequenceOfSubsequence(r: seq<string>, ys: seq<string>, xs: seq<string>)
    requires IsSubsequence(r, ys) && IsSubsequence(ys, xs)
    ensures IsSubsequence(r, xs)
  {
    var f :| KeepsBy(r, ys, f);
    var g :| KeepsBy(ys, xs, g);
    var keep: seq<nat> := seq(|f|, i requires 0 <= i < |f| => g[f[i]]);
    assert KeepsBy(r, xs, keep);
  }

  /** Removing one occurrence drops one position and keeps the others. */
  lemma RemoveFirstKeepsOrder(inventory: seq<string>, x: string)
    ensures IsSubsequence(RemoveFirst(inventory, x), inventory)
  {
    if x in inventory {
      var i := FirstIndex(inventory, x);
      var keep: seq<nat> := seq(|inventory| - 1, j requires 0 <= j => if j < i then j else j + 1);
      assert KeepsBy(RemoveFirst(inventory, x), inventory, keep);
    } else {
      SubsequenceOfItself(inventory);
    }
  }

  /** The entries that survive when the copies in `owed` are taken away,
      read in one pass from the front: an entry is skipped while `owed`
      still holds a copy of it, and kept otherwise. So the earliest copies
      go first. */
  function Survivors(inventory: seq<string>, owed: multiset<string>): seq<string>
    decreases |inventory|
  {
    if |inventory| == 0 then []
    else if owed[inventory[0]] > 0 then Survivors(inventory[1..], owed - multiset{inventory[0]})
    else [inventory[0]] + Survivors(inventory[1..], owed)
  }

  /** Removing an item the first entry is not leaves that entry in front. */
  lemma RemoveFirstBehindOther(inventory: seq<string>, x: string)
    requires |inventory| > 0 && inventory[0] != x
    ensures RemoveFirst(inventory, x) == [inventory[0]] + RemoveFirst(inventory[1..], x)
  {
    var t := inventory[1..];
    if x in inventory {
      assert x in t;
      var i := FirstIndex(t, x);
      assert FirstIndex(inventory, x) == i + 1;
      assert inventory[..i + 1] == [inventory[0]] + t[..i];
      assert inventory[i + 2..] == t[i + 1..];
      assert RemoveFirst(inventory, x) == inventory[..i + 1] + inventory[i + 2..];
      assert RemoveFirst(t, x) == t[..i] + t[i + 1..];
      assert ([inventory[0]] + t[..i]) + t[i + 1..] == [inventory[0]] + (t[..i] + t[i + 1..]);
    } else {
      assert x !in t;
      assert inventory == [inventory[0]] + t;
    }
  }

  /** Removing the first copy of `x` and then the copies in `owed` is
      taking the copies in `owed` and one more `x`. */
  lemma {:induction false} SurvivorsAfterRemoveFirst(inventory: seq<string>, x: string, owed: multiset<string>)
    ensures Survivors(RemoveFirst(inventory, x), owed) == Survivors(inventory, owed + multiset{x})
    decreases |inventory|
  {
    if |inventory| > 0 {
      if inventory[0] == x {
        SurvivorsAtFirst(inventory, x, owed);
      } else {
        RemoveFirstBehindOther(inventory, x);
        var owedNext := if owed[inventory[0]] > 0 then owed - multiset{inventory[0]} else owed;
        SurvivorsAfterRemoveFirst(inventory[1..], x, owedNext);
        SurvivorsPastOther(inventory, x, owed, RemoveFirst(inventory[1..], x));
      }
    }
  }

  /** `SurvivorsAfterRemoveFirst` when the first entry is `x`. */
  lemma SurvivorsAtFirst(inventory: seq<string>, x: string, owed: multiset<string>)
    requires |inventory| > 0 && inventory[0] == x
    ensures Survivors(RemoveFirst(inventory, x), owed) == Survivors(inventory, owed + multiset{x})
  {
    assert FirstIndex(inventory, x) == 0;
    assert RemoveFirst(inventory, x) == inventory[1..];
    assert (owed + multiset{x})[x] > 0;
    assert owed + multiset{x} - multiset{x} == owed;
  }

  /** One step of `SurvivorsAfterRemoveFirst` past an entry other than `x`. */
  lemma SurvivorsPastOther(inventory: seq<string>, x: string, owed: multiset<string>, t: seq<string>)
    requires |inventory| > 0 && inventory[0] != x
    requires var y := inventory[0];
             var owedNext := if owed[y] > 0 then owed - multiset{y} else owed;
             Survivors(t, owedNext) == Survivors(inventory[1..], owedNext + multiset{x})
    ensures Survivors([inventory[0]] + t, owed) == Survivors(inventory, owed + multiset{x})
  {
    var y := inventory[0];
    assert ([y] + t)[1..] == t;
    assert (owed + multiset{x})[y] == owed[y];
    if owed[y] > 0 {
      assert owed - multiset{y} + multiset{x} == owed + multiset{x} - multiset{y};
    }
  }

  /** The removing loop: one occurrence per listed item, when carried; what
      stays keeps its order. With several copies of an item carried, the
      earliest go first, as `list.remove` does. */
  function RemoveItems(inventory: seq<string>, items: seq<string>): (r: seq<string>)
    ensures multiset(r) == multiset(inventory) - multiset(items)
    ensures IsSubsequence(r, inventory)
    ensures r == Survivors(inventory, multiset(items))
    decreases |items|
  {
    if |items| == 0 then
      SubsequenceOfItself(inventory);
      SurvivorsOwingNothing(inventory);
      inventory
    else
      assert items == [items[0]] + items[1..];
      var r := RemoveItems(RemoveFirst(inventory, items[0]), items[1..]);
      RemoveStep(inventory, items[0], items[1..], r);
      r
  }

  /** One step of the removing loop: what removing the rest from
      `RemoveFirst(inventory, x)` gives is what removing `[x] + rest`
      promises. */
  lemma RemoveStep(inventory: seq<string>, x: string, rest: seq<string>, r: seq<string>)
    requires var next := RemoveFirst(inventory, x);
             && multiset(r) == multiset(next) - multiset(rest)
             && IsSubsequence(r, next)
             && r == Survivors(next, multiset(rest))
    ensures multiset(r) == multiset(inventory) - multiset([x] + rest)
    ensures IsSubsequence(r, inventory)
    ensures r == Survivors(inventory, multiset([x] + rest))
  {
    var next := RemoveFirst(inventory, x);
    assert multiset([x] + rest) == multiset(rest) + multiset{x};
    RemoveFirstKeepsOrder(inventory, x);
    SubsequenceOfSubsequence(r, next, inventory);
    SurvivorsAfterRemoveFirst(inventory, x, multiset(rest));
  }

  /** With nothing owed, every entry survives. */
  lemma {:induction false} SurvivorsOwingNothing(inventory: seq<string>)
    ensures Survivors(inventory, multiset{}) == inventory
    decreases |inventory|
  {
    if |inventory| > 0 {
      SurvivorsOwingNothing(inventory[1..]);
    }
  }

  /** Removing keeps the survivors in their order, so a duplicate-free
      inventory stays duplicate-free. */
  lemma {:induction false} RemoveItemsKeepsNoDuplicates(inventory: seq<string>, items: seq<string>)
    requires NoDuplicates(inventory)
    ensures NoDuplicates(RemoveItems(inventory, items))
    decreases |items|
  {
    if |items| > 0 {
      var x := items[0];
      var next := RemoveFirst(inventory, x);
      if x in inventory {
        var i := FirstIndex(inventory, x);
        forall a, b | 0 <= a < b < |next| ensures next[a] != next[b] {
          var a' := if a < i then a else a + 1;
          var b' := if b < i then b else b + 1;
          assert next[a] == inventory[a'] && next[b] == inventory[b'];
        }
      }
      RemoveItemsKeepsNoDuplicates(next, items[1..]);
    }
  }

  /** What the reply's item lists do to the inventory: adding first, then
      removing. */
  function ReconcileInventory(inventory: seq<string>, added: seq<string>, removed: seq<string>): (r: seq<string>)
    ensures multiset(r) == multiset(AddItems(inventory, added)) - multiset(removed)
    ensures exists appended :: AppendsInOrder(inventory, added, appended) && IsSubsequence(r, inventory + appended)
    ensures NoDuplicates(inventory) ==> NoDuplicates(r)
    ensures r == Survivors(AddItems(inventory, added), multiset(removed))
  {
    var grown := AddItems(inventory, added);
    assert NoDuplicates(inventory) ==> NoDuplicates(RemoveItems(grown, removed)) by {
      if NoDuplicates(inventory) {
        RemoveItemsKeepsNoDuplicates(grown, removed);
      }
    }
    assert grown == inventory + grown[|inventory|..];
    RemoveItems(grown, removed)
  }

  /** Because adding comes first, an item a reply both adds and removes is
      not carried afterwards unless it was carried twice before. */
  lemma AddedAndRemovedIsGone(inventory: seq<string>, added: seq<string>, removed: seq<string>, x: string)
    requires NoDuplicates(inventory)
    requires x in added && x in removed
    ensures x !in ReconcileInventory(inventory, added, removed)
  {
    var grown := AddItems(inventory, added);
    var r := ReconcileInventory(inventory, added, removed);
    if x != "" {
      assert x in grown;
      assert multiset(grown)[x] == 1 by { MultiplicityOfDistinct(grown, x); }
      assert multiset(removed)[x] >= 1;
      assert multiset(r)[x] == 0;
    } else {
      assert multiset(removed)[x] >= 1;
      assert multiset(grown)[x] <= 1 by { MultiplicityOfDistinct(grown, x); }
      assert multiset(r)[x] == 0;
    }
  }

  lemma {:induction false} MultiplicityOfDistinct(xs: seq<string>, x: string)
    requires NoDuplicates(xs)
    ensures multiset(xs)[x] == if x in xs then 1 else 0
  {
    if |xs| > 0 {
      assert xs == [xs[0]] + xs[1..];
      assert xs[0] !in xs[1..] by {
        forall k | 0 <= k < |xs[1..]| ensures xs[1..][k] != xs[0] {
          assert xs[1..][k] == xs[k + 1];
        }
      }
      MultiplicityOfDistinct(xs[1..], x);
    }
  }

  // ---------------------------------------------------------------------
  // Reconciling a reply
  // ---------------------------------------------------------------------

  const NothingHappens := "Nothing happens..."

  /** `update_game_state`: hit points, location, inventory, then the turn is
      appended to the history and the window pruned to the configured
      number of turns. Missing keys read as 0, no location, no items and
      "Nothing happens...". */
  function UpdateGameState(gs: GameState, reply: Reply, action: string, configuredTurns: int): (r: GameState)
    ensures r.player.name == gs.player.name && r.player.maxHp == gs.player.maxHp
    ensures r.maxHistoryTurns == gs.maxHistoryTurns
    ensures r.player.hp == ApplyHpChange(gs.player.hp, gs.player.maxHp, reply.hpChange.GetOr(0))
    ensures reply.location.Some? && reply.location.value != "" ==> r.currentLocation == reply.location.value
    ensures reply.location.None? || reply.location.value == "" ==> r.currentLocation == gs.currentLocation
    ensures r.player.inventory ==
              ReconcileInventory(gs.player.inventory, reply.itemsAdded.GetOr([]), reply.itemsRemoved.GetOr([]))
    ensures r.storyHistory ==
              PruneHistory(AddToHistory(gs.storyHistory, action, reply.narrative.GetOr(NothingHappens)), configuredTurns)
  {
    var hp := ApplyHpChange(gs.player.hp, gs.player.maxHp, reply.hpChange.GetOr(0));
    var location := if reply.location.Some? && reply.location.value != "" then reply.location.value else gs.currentLocation;
    var inventory := ReconcileInventory(gs.player.inventory, reply.itemsAdded.GetOr([]), reply.itemsRemoved.GetOr([]));
    var history := AddToHistory(gs.storyHistory, action, reply.narrative.GetOr(NothingHappens));
    GameState(
      gs.player.(hp := hp, inventory := inventory),
      PruneHistory(history, configuredTurns),
      location,
      gs.maxHistoryTurns)
  }

  /** The state the turn loop relies on: hit points within bounds, no item
      carried twice, and the history in Player/DM pairs. */
  predicate ValidState(gs: GameState) {
    && 0 <= gs.player.hp <= gs.player.maxHp
    && NoDuplicates(gs.player.inventory)
    && WellPaired(gs.storyHistory)
  }

  /** Every reply, whatever it holds, keeps a valid state valid. */
  lemma UpdateKeepsValidState(gs: GameState, reply: Reply, action: string, configuredTurns: int)
    requires ValidState(gs)
    ensures ValidState(UpdateGameState(gs, reply, action, configuredTurns))
  {
    AddThenPruneKeepsPairs(gs.storyHistory, action, reply.narrative.GetOr(NothingHappens), configuredTurns);
  }

  /** A hit that takes the points to zero or below ends the game; with a
      positive maximum, no other reply does. */
  lemma GameOverExactlyOnLethalDamage(gs: GameState, reply: Reply, action: string, configuredTurns: int)
    requires ValidState(gs) && gs.player.hp > 0
    ensures IsGameOver(UpdateGameState(gs, reply, action, configuredTurns)) <==>
              gs.player.hp + reply.hpChange.GetOr(0) <= 0
  {
  }

  // ---------------------------------------------------------------------
  // Reading commands
  // ---------------------------------------------------------------------

  /** What one line typed by the player means. */
  datatype Command = Quit | Retry | Act(text: string)

  const QuitWords: seq<string> := ["quit", "exit", "q", "menu"]

  /** `get_user_input`: the line is stripped; one of the quit words in any
      letter case leaves the loop, an empty line asks again, anything else
      is the action, stripped. */
  function ReadCommand(line: string): (c: Command)
    ensures c == Quit <==> Lower(Strip(line)) in QuitWords
    ensures c == Retry <==> Strip(line) == ""
    ensures c.Act? ==> c.text == Strip(line) && c.text != "" &&
                       !IsSpace(c.text[0]) && !IsSpace(c.text[|c.text| - 1])
  {
    var text := Strip(line);
    assert text == "" ==> Lower(text) == "" && "" !in QuitWords;
    if Lower(text) in QuitWords then Quit
    else if text == "" then Retry
    else Act(text)
  }

  // ---------------------------------------------------------------------
  // Latest narrative
  // ---------------------------------------------------------------------

  /** The position of the last narrator entry. */
  function LastDmIndex(history: seq<string>): (r: Option<nat>)
    ensures r.None? ==> forall i :: 0 <= i < |history| ==> !StartsWith(history[i], DmPrefix)
    ensures r.Some? ==> r.value < |history| && StartsWith(history[r.value], DmPrefix) &&
                        forall i :: r.value < i < |history| ==> !StartsWith(history[i], DmPrefix)
  {
    if |history| == 0 then None
    else if StartsWith(history[|history| - 1], DmPrefix) then Some(|history| - 1)
    else LastDmIndex(history[..|history| - 1])
  }

  const ContinuesText := "Your adventure continues..."

  /** The narrative the loop shows when it starts: the last narrator entry
      without its prefix, or a stock line when there is none. */
  function LatestNarrative(history: seq<string>): (r: string)
    ensures (forall i :: 0 <= i < |history| ==> !StartsWith(history[i], DmPrefix)) ==> r == ContinuesText
    ensures forall i ::
              (0 <= i < |history| && StartsWith(history[i], DmPrefix)
               && forall j :: i < j < |history| ==> !StartsWith(history[j], DmPrefix)) ==>
              r == history[i][|DmPrefix|..]
  {
    match LastDmIndex(history)
    case Some(i) => history[i][|DmPrefix|..]
    case None => ContinuesText
  }

  /** After a turn under a non-negative turn limit, the narrative recovered
      from the history is the narrative that turn recorded. */
  lemma LatestNarrativeAfterUpdate(gs: GameState, reply: Reply, action: string, configuredTurns: int)
    requires configuredTurns >= 0
    ensures LatestNarrative(UpdateGameState(gs, reply, action, configuredTurns).storyHistory) ==
              reply.narrative.GetOr(NothingHappens)
  {
    var narrative := reply.narrative.GetOr(NothingHappens);
    var added := AddToHistory(gs.storyHistory, action, narrative);
    var h := PruneHistory(added, configuredTurns);
    assert |h| > 0 && h[|h| - 1] == added[|added| - 1];
    LatestNarrativeOfLastEntry(h, narrative);
  }

  /** A history ending in a narrator entry shows that entry's narrative. */
  lemma LatestNarrativeOfLastEntry(history: seq<string>, narrative: string)
    requires |history| > 0 && history[|history| - 1] == DmPrefix + narrative
    ensures LatestNarrative(history) == narrative
  {
    assert (DmPrefix + narrative)[..|DmPrefix|] == DmPrefix;
    assert (DmPrefix + narrative)[|DmPrefix|..] == narrative;
  }

  /** A negative limit can prune the turn just recorded away. */
  lemma NegativeLimitCanLoseTheTurn(gs: GameState, reply: Reply, action: string)
    requires gs.storyHistory == []
    ensures UpdateGameState(gs, reply, action, -1).storyHistory == []
  {
  }

  // ---------------------------------------------------------------------
  // Game over, new game
  // ---------------------------------------------------------------------

  /** `check_game_over`. */
  predicate IsGameOver(gs: GameState) {
    gs.player.hp <= 0
  }

  /** Hit points never go negative in a valid state, so there the game is
      over exactly when none are left. */
  lemma GameOverMeansNoHitPoints(gs: GameState)
    requires ValidState(gs)
    ensures IsGameOver(gs) <==> gs.player.hp == 0
  {
  }

  const StartingHp := 100
  const StartingInventory: seq<string> := ["Old Sword", "Health Potion"]
  const StartingLocation := "Village Square"

  /** The state a new game starts from; no game without a name. */
  function NewGame(name: string, configuredTurns: int): (r: Option<GameState>)
    ensures r.Some? <==> name != ""
    ensures r.Some? ==> ValidState(r.value) && !IsGameOver(r.value)
    ensures r.Some? ==> r.value.player == Character(name, StartingHp, StartingHp, StartingInventory)
    ensures r.Some? ==> r.value.currentLocation == StartingLocation && r.value.storyHistory == []
    ensures r.Some? ==> r.value.maxHistoryTurns == configuredTurns
  {
    if name == "" then None
    else Some(GameState(Character(name, StartingHp, StartingHp, StartingInventory), [], StartingLocation, configuredTurns))
  }

  const OpeningRequest := "Start a new fantasy RPG adventure for "
  const OpeningSetting := ". They begin in a village square with an old sword and health potion. "
                          + "Create an engaging opening scenario that sets up the adventure."

  /** The request that opens a new game. */
  function OpeningPrompt(name: string): string {
    OpeningRequest + name + OpeningSetting
  }

  /** The action the opening turn is recorded under. */
  function OpeningAction(name: string): string {
    "Begin adventure as " + name
  }

  /** `create_new_game` after the name is chosen: the opening request is
      answered and reconciled like any turn. */
  function CreateNewGame(mode: Mode, name: string, configuredTurns: int, backend: Context -> BackendOutcome, pick: nat): (r: Option<(Mode, GameState)>)
    ensures r.Some? <==> name != ""
    ensures r.Some? ==> AllowedTransition(mode, r.value.0) && ValidState(r.value.1)
    ensures r.Some? && configuredTurns >= 1 ==>
              |r.value.1.storyHistory| == 2 && r.value.1.storyHistory[0] == PlayerPrefix + OpeningAction(name)
  {
    match NewGame(name, configuredTurns)
    case None => None
    case Some(gs) =>
      var (mode', reply) := GetAiResponse(mode, gs, OpeningPrompt(name), backend, pick);
      var gs' := UpdateGameState(gs, reply, OpeningAction(name), configuredTurns);
      UpdateKeepsValidState(gs, reply, OpeningAction(name), configuredTurns);
      Some((mode', gs'))
  }

  // ---------------------------------------------------------------------
  // The turn loop
  // ---------------------------------------------------------------------

  const SilentText := "The Oracle remains mysteriously silent..."

  /** One pass of `run_game_loop` with a command: ask the narrator, reconcile
      the reply, and show its narrative. */
  function PlayTurn(mode: Mode, gs: GameState, action: string, backend: Context -> BackendOutcome, pick: nat, configuredTurns: int): (r: (Mode, GameState, string))
    ensures AllowedTransition(mode, r.0)
    ensures ValidState(gs) ==> ValidState(r.1)
    ensures configuredTurns >= 0 ==> r.2 == LatestNarrative(r.1.storyHistory)
    ensures configuredTurns >= 1 ==> |r.1.storyHistory| <= 2 * configuredTurns
  {
    var (mode', reply) := GetAiResponse(mode, gs, action, backend, pick);
    var gs' := UpdateGameState(gs, reply, action, configuredTurns);
    assert ValidState(gs) ==> ValidState(gs') by {
      if ValidState(gs) {
        UpdateKeepsValidState(gs, reply, action, configuredTurns);
      }
    }
    assert configuredTurns >= 0 ==> reply.narrative.GetOr(SilentText) == LatestNarrative(gs'.storyHistory) by {
      if configuredTurns >= 0 {
        LatestNarrativeAfterUpdate(gs, reply, action, configuredTurns);
      }
    }
    (mode', gs', reply.narrative.GetOr(SilentText))
  }

  /** Why the loop ended. */
  datatype Ending = Fallen | Left | OutOfInput

  /** `run_game_loop` over the lines the player types: the game-over test
      comes first, then the line is read; each line comes with the backend
      and random draw its turn would use. */
  function RunLoop(mode: Mode, gs: GameState, lines: seq<string>, backends: seq<Context -> BackendOutcome>,
                   picks: seq<nat>, configuredTurns: int): (r: (Mode, GameState, Ending))
    requires |backends| == |lines| && |picks| == |lines|
    ensures AllowedTransition(mode, r.0)
    ensures ValidState(gs) ==> ValidState(r.1)
    ensures r.2 == Fallen <==> IsGameOver(r.1)
    ensures configuredTurns >= 1 && |gs.storyHistory| <= 2 * configuredTurns ==>
              |r.1.storyHistory| <= 2 * configuredTurns
    decreases |lines|
  {
    if IsGameOver(gs) then (mode, gs, Fallen)
    else if |lines| == 0 then (mode, gs, OutOfInput)
    else
      match ReadCommand(lines[0])
      case Quit => (mode, gs, Left)
      case Retry => RunLoop(mode, gs, lines[1..], backends[1..], picks[1..], configuredTurns)
      case Act(action) =>
        var (mode', gs', _) := PlayTurn(mode, gs, action, backends[0], picks[0], configuredTurns);
        RunLoop(mode', gs', lines[1..], backends[1..], picks[1..], configuredTurns)
  }

  /** Once the narrator has fallen back, it stays fallen back for the rest
      of the session, and what the backends would have said is irrelevant. */
  lemma {:induction false} FallbackIsPermanent(gs: GameState, lines: seq<string>,
                                               b1: seq<Context -> BackendOutcome>, b2: seq<Context -> BackendOutcome>,
                                               picks: seq<nat>, configuredTurns: int)
    requires |b1| == |lines| && |b2| == |lines| && |picks| == |lines|
    ensures RunLoop(Fallback, gs, lines, b1, picks, configuredTurns).0 == Fallback
    ensures RunLoop(Fallback, gs, lines, b1, picks, configuredTurns) == RunLoop(Fallback, gs, lines, b2, picks, configuredTurns)
    decreases |lines|
  {
    if !IsGameOver(gs) && |lines| > 0 {
      match ReadCommand(lines[0])
      case Quit =>
      case Retry =>
        FallbackIsPermanent(gs, lines[1..], b1[1..], b2[1..], picks[1..], configuredTurns);
      case Act(action) =>
        var (_, gs', _) := PlayTurn(Fallback, gs, action, b1[0], picks[0], configuredTurns);
        FallbackTurnIgnoresBackend(gs, action, b1[0], b2[0], picks[0], configuredTurns);
        FallbackIsPermanent(gs', lines[1..], b1[1..], b2[1..], picks[1..], configuredTurns);
    }
  }

  /** One turn in fallback mode stays in fallback mode and does not depend
      on the backend. */
  lemma FallbackTurnIgnoresBackend(gs: GameState, action: string, b1: Context -> BackendOutcome, b2: Context -> BackendOutcome,
                                   pick: nat, configuredTurns: int)
    ensures PlayTurn(Fallback, gs, action, b1, pick, configuredTurns).0 == Fallback
    ensures PlayTurn(Fallback, gs, action, b1, pick, configuredTurns) == PlayTurn(Fallback, gs, action, b2, pick, configuredTurns)
  {
    FallbackIgnoresBackend(gs, action, b1, b2, pick);
  }
}
